=== FILE: README.md ===
# Dame (Queen) prediction bot — a Dafny model of its core

The bot reads card-draw announcements from a source channel. It recognises
figure cards (Jack, King, Ace, Queen) in each announcement, and while its
"intelligent mode" is on it predicts that a Queen will show up in the first
group two or three draws later. It posts that prediction to a prediction
channel and checks later finalised draws against it. It also counts
consecutive failures. The failure that brings the streak to exactly two
ends the update and, when an admin chat is configured, sends it the `/inter`
reply (handlers.py:256-261). With fewer than three recorded draws that reply
is only an insufficient-history notice (handlers.py:115-117). Otherwise it
is the history listing and the Queen-cycle analysis with a yes/no prompt
that switches the intelligent mode on or off. Failures never change the
mode themselves.

This project models that core:

- **`CardPredictor`** (card_predictor.py). The text extractors, the rule
  table `check_dame_rule`, the `should_predict` gate, `make_prediction`,
  `verify_prediction` and the state these read and write.
- **The update dispatcher** (handlers.py). The source-channel branch of
  `process_update`, the command branch, `/defaut`, the yes/no buttons, and
  the cycle analysis of `/inter` together with its headline.

Each operation is a pure function. It takes the old state and returns the new
state together with what the caller is told. Every outgoing Telegram call is
returned as an `Action` value and never performed.

Files and modules:

| file | module | contents |
|---|---|---|
| wrappers.dfy | `Wrappers` | `Option`, `Result` |
| text.dfy | `Text` | decimal digits, substring search, `str.replace`, `str.strip('()')` |
| extract.dfy | `Extract` | the regular expressions of the extractors, written as scanners over the text; each scanner's contract says which texts it matches, and the card scanner is pinned down by its skip and round-trip lemmas |
| rules.dfy | `Rules` | the Queen rule table, the `"Q:<rule>"` value and its `split(':')[1]` |
| ordered.dfy | `Ordered` | least element of a finite set, `sorted()` of a set of ints |
| history.dfy | `History` | the bounded `draw_history` and its eviction of the least game |
| predictor.dfy | `Predictor` | `CardPredictor` state, gate, prediction, verification |
| cycles.dfy | `Cycles` | the `/inter` report: history listing, N-2 → N cycles, headline |
| handlers.dfy | `Handlers` | `process_update`, commands, buttons |

Modelling choices:

- **Regular expressions.**
  - `\d` means an ASCII digit.
  - `\b` is judged with ASCII letters, digits and `_` as word characters.
  - `.` matches anything except a newline.
  - A card is one or more of `A K Q J 0-9` followed by one character of the
    suit class ♥ ♠ ♦ ♣ ❤ or U+FE0F. This is the class as the source writes it,
    so a variation selector counts as a suit on its own.
- **Truthiness.** Every `if not x` test is kept as the source writes it. A game
  number 0 counts as absent (`GameOf`), and so does an empty first group
  (`GroupOf`).
- **Integers.** Python's integers are unbounded, and so are Dafny's `int`.
- **Behaviour as the code has it.**
  - The completion glyphs are the four listed at card_predictor.py:88:
    ✅ 🔰 ❌ 🔴 (`HasCompletionIndicator`).
  - Declining the prompt (NON, handlers.py:206-208) switches the mode off
    and leaves the failure streak as it is (`HandleButton`).
  - The source branch may post a verification notice (handlers.py:263-268)
    and then run the prediction gate (handlers.py:270-274) on the same
    message. `NoticeOrPrediction` proves that no message gets both.

## Model

| member | source | states |
|---|---|---|
| `Text.DecimalRoundTrip` | card_predictor.py:36-42 | The decimal digits written for a number read back as that number (`int()` of an f-string rendering). |
| `Text.ReplaceTrailing` | card_predictor.py:240 | `str.replace` on a text that ends with the pattern, with the pattern's last character absent before it, replaces exactly that trailing occurrence. |
| `Text.Contains` | card_predictor.py:88-89 | Python's `pat in s`: true if and only if the pattern occurs at some index of the text. |
| `Text.NatToDecimal` | card_predictor.py:150-162 | The decimal rendering of a natural number is a non-empty digit string without a leading zero (unless it is `0`). |
| `Text.IntToDecimal` | card_predictor.py:150-162 | The f-string rendering of an int: digits, with a leading `-` exactly for a negative number. |
| `Text.ReplaceAll` | card_predictor.py:240-251 | `str.replace` with the pattern as its own replacement gives the text back, and a replacement of the pattern's length keeps the length. |
| `Text.ReplaceAbsent` | card_predictor.py:240-251 | A text in which the pattern occurs nowhere is returned unchanged by `str.replace`. |
| `Text.StripParens` | card_predictor.py:49 | `strip('()')` leaves a middle part of the text: everything cut from either end is a parenthesis, and the result neither starts nor ends with one. |
| `Text.StripIdempotent` | card_predictor.py:49 | `strip('()')` applied twice is applied once. |
| `Extract.ExtractGameNumber` | card_predictor.py:36-42 | None exactly when no `#n`/`#N` followed by a digit occurs anywhere. |
| `Extract.GameNumberRoundTrip` | card_predictor.py:36-42 | A `#n<digits>` / `#N<digits>` marker after a `#`-free prefix, followed by a non-digit, is read back as its number. |
| `Extract.ExtractFirstGroup` | card_predictor.py:44-50 | None exactly when no `(…)` on one line exists. The content holds no `)` or newline and neither starts nor ends with a parenthesis. |
| `Extract.FirstGroupIsLeftmost` | card_predictor.py:46-49 | The group reported is the match of `\(.*?\)` that opens leftmost (no match opens earlier), with `strip('()')` applied. |
| `Extract.FirstGroupRoundTrip` | card_predictor.py:44-50 | A parenthesis-free group after a `(`-free prefix is extracted exactly, whatever follows it. |
| `Extract.GroupSpanUnique` | card_predictor.py:46-47 | A lazy `\(.*?\)` match is fixed by where it opens. |
| `Extract.CardTokensCons` | card_predictor.py:60-61 | A card token at the front of a text is the first token found, followed by the tokens of the rest. |
| `Extract.CardTokens` | card_predictor.py:60-61 | `re.findall` of the card pattern: every element is a card token (ranks `A K Q J 0-9`, then one suit character). |
| `Extract.CardTokensSkip` | card_predictor.py:60-61 | Where no card token starts, `findall` moves on one character and finds the same tokens as in the rest. |
| `Extract.CardTokensSkipSeparator` | card_predictor.py:60-61 | A run of characters that are not ranks contributes no token: the tokens of `sep + rest` are those of `rest`. |
| `Extract.FirstTwoTokens` | card_predictor.py:60-64 | Two card tokens with rank-free text before and between them are the first two tokens found. |
| `Extract.NoRankNoTokens` | card_predictor.py:60-61 | Text without rank characters yields no card token at all. |
| `Extract.OneToken` | card_predictor.py:60-61 | One card token between rank-free texts is the only token found. |
| `Extract.ExtractFirstTwoCards` | card_predictor.py:52-66 | Some exactly when the first group exists and holds at least two card tokens. The result is two card tokens concatenated. |
| `Extract.FirstTwoCardsRoundTrip` | card_predictor.py:52-66 | In a first group made of rank-free text, a card token, rank-free text, a card token and anything on one line without parentheses, the extractor returns the two tokens concatenated (for example `(K♠️10♦️)` gives `K♠10♦`, each variation selector U+FE0F being rank-free text after a token). |
| `Extract.OneCardGroup` | card_predictor.py:52-66 | A first group holding a single card token among rank-free text has fewer than two tokens, so the extractor returns None. |
| `Extract.FigureSignals` | card_predictor.py:68-77 | Each of J/K/A is set if and only if a standalone letter of its class or its French word occurs anywhere in the whole message. |
| `Extract.QueenInFirstGroup` | card_predictor.py:79-84 | True if and only if the first group is non-empty and contains a standalone `Q`/`q` or `Dame`. |
| `Extract.HasCompletionIndicator` | card_predictor.py:86-89 | True if and only if one of ✅ 🔰 ❌ 🔴 occurs in the text. |
| `Extract.HasDoubleJack` | card_predictor.py:96-98 | True if and only if two `J`/`j` occur on one line of the group (`J.*J`, case-insensitive). |
| `Extract.QueenCard` | handlers.py:141-143 | None exactly when no `Q` followed by a suit character occurs. Otherwise it is the leftmost such match, `Q` and its suit character. |
| `Rules.CheckDameRule` | card_predictor.py:93-112 | The double-Jack pattern wins. Otherwise each rule fires if and only if its J/K/A condition holds, and no rule fires if and only if there is no King and (no Jack or an Ace). |
| `Rules.SecondField` | card_predictor.py:145 | `split(':')[1]` fails (IndexError) if and only if there is no colon. Otherwise it is the text between the first colon and the next colon or the end. |
| `Rules.EncodeValueRoundTrip` | card_predictor.py:133-145 | The value `f"Q:{rule}"` written by the gate splits back into the rule's identifier, and identifiers parse back to their rule. |
| `Ordered.SetMin` | card_predictor.py:196 | `min()` of a non-empty key set is in the set and at most every key. |
| `Ordered.Sorted` | card_predictor.py:202 | `sorted()` of a key set lists each key exactly once, in strictly ascending order. |
| `History.RecordDraw` | card_predictor.py:187-197 | The stored game maps to the new entry. Other games keep their entries, and no key appears other than the old ones and the new game. |
| `History.RecordDrawSize` | card_predictor.py:195-197 | The size after an insert is the number of distinct games among the old keys and the new one, capped at ten: a game already stored leaves the size unchanged. |
| `History.RecordDrawKeepsGame` | card_predictor.py:195-197 | The new draw is kept when the history had room or some stored game is below it. |
| `History.RecordDrawDropsOlder` | card_predictor.py:195-197 | A draw older than every game of a full history is evicted at once, leaving the history unchanged. |
| `History.RecordDrawEvictsLeast` | card_predictor.py:195-197 | A key lost by an insert is below every key that remains. |
| `History.RecordDrawKeepsNewest` | card_predictor.py:195-197 | Whatever the arrival order, the history holds exactly the ten largest game numbers ever recorded (all of them while fewer). |
| `History.RecordDrawIdempotent` | handlers.py:241-254 | Recording the same draw twice gives the same history as recording it once. |
| `Predictor.Initial` | card_predictor.py:19-32 | The initial state is valid, dormant, with no failures, no predictions, no processed texts, no last prediction and an empty history. |
| `Predictor.GameOf` | card_predictor.py:116-117 | A game number is present exactly when one is extracted and it is not 0. |
| `Predictor.GroupOf` | card_predictor.py:126-128 | A first group is present exactly when one is extracted and it is non-empty. |
| `Predictor.ShouldPredict` | card_predictor.py:114-141 | Fires if and only if there is a game number, no completion glyph, the mode is on, there is a non-empty first group, a rule applies and the text is new. Firing records the text and the value `Q:<rule>`. Not firing changes nothing. |
| `Predictor.ShouldPredictOnce` | card_predictor.py:134-139 | A text that fired once never fires again, whatever the state has become. |
| `Predictor.RenderText` | card_predictor.py:147-162 | Every announcement ends in the `statut :⏳` slot, and the slot's hourglass appears nowhere before it. |
| `Predictor.MakePrediction` | card_predictor.py:143-172 | Fails if and only if the value has no colon. Otherwise it stores a pending prediction at the source game + 2 or + 3, by rule, with the rendered text, and changes no other key. |
| `Predictor.GateValueShape` | card_predictor.py:143-169 | The gate's value contains a colon, starts with `Q:` and splits back into the rule's identifier, and the rule's offset is the target distance `make_prediction` uses. |
| `Predictor.MakePredictionFromGate` | card_predictor.py:143-172 | From the gate's value a Queen prediction is always created: pending, at source + rule offset, other predictions unchanged. |
| `Predictor.MakePredictionKeepsValid` | card_predictor.py:164-170 | Creating a prediction keeps every stored text carrying its status slot. |
| `Predictor.FirstDue` | card_predictor.py:202-230 | Along a key list, the index returned is due and every earlier one is not. None means none is due. |
| `Predictor.FirstDueIsLeast` | card_predictor.py:202-214 | Over the ascending list of all keys, the first due entry is the least due key. None exactly when no prediction is due. |
| `Predictor.LeastDueKey` | card_predictor.py:202-230 | None exactly when nothing is due. Otherwise it is the least due key: pending, a Queen prediction, at or before the game, and either past the window or with a Queen present. |
| `Predictor.Resolve` | card_predictor.py:232-263 | The resolved prediction alone changes status: correct inside the window, failed after it. Success clears the streak and edits ⏳ into ✅. Failure adds one to the streak and signals the threshold if and only if the streak is exactly 2; otherwise it edits ⏳ into ❌. |
| `Predictor.ScanPredictions` | card_predictor.py:200-267 | Acts if and only if some prediction is due, and then resolves the least due one. Otherwise nothing changes. |
| `Predictor.ScanOutcome` | card_predictor.py:202-265 | A scan that acts resolved exactly one prediction, the least due. Only its status changed, the streak was reset or incremented by the window, and the threshold signal is sent exactly for the failure that makes the streak 2. |
| `Predictor.RecordText` | card_predictor.py:184-197 | A draw without a non-empty first group leaves the history as it was. Otherwise it is recorded, and if it survives the eviction its entry holds the text, the first group, the message id and the first two cards extracted from the text. |
| `Predictor.VerifyPrediction` | card_predictor.py:175-267 | A text without game number or completion glyph changes nothing. Otherwise the draw is recorded and then the predictions are scanned with the Queen test of the first group. The gate's fields are never touched. |
| `Predictor.VerifyOutcome` | card_predictor.py:175-267 | When verification acts, the text was finalised and exactly one prediction was resolved as `ScanOutcome` describes. |
| `Predictor.ResolveSwapsSlot` | card_predictor.py:238-263 | A resolution edit carries the stored text as original. The new text is that text with its trailing ⏳ slot replaced by ✅ inside the window or ❌ after it. |
| `Predictor.ScanEditSwapsSlot` | card_predictor.py:233-263 | The same for a whole scan: the edited game is a stored prediction whose text had only its slot swapped. |
| `Predictor.VerifyEditSwapsSlot` | card_predictor.py:233-263 | The same for a whole verification from a valid state. |
| `Predictor.StatusChangeKeepsTexts` | card_predictor.py:241-252 | Changing one prediction's status keeps every text carrying its slot. |
| `Predictor.ScanKeepsValid` | card_predictor.py:202-265 | A scan keeps the state valid. |
| `Predictor.RecordTextKeepsValid` | card_predictor.py:187-197 | Recording keeps the history within ten entries of non-empty groups. |
| `Predictor.VerifyKeepsValid` | card_predictor.py:175-267 | Verification keeps the state valid. |
| `Predictor.VerifyOrPredict` | card_predictor.py:119 | When verification acts on a text, the gate refuses that text in every state: one needs a completion glyph, the other forbids it. |
| `Cycles.CycleAt` | handlers.py:141-160 | A cycle ends at its Queen game, its trigger is two games earlier, it carries the trigger's first two cards and the leftmost Queen card of the end game's first group. |
| `Cycles.CyclesOf` | handlers.py:136-161 | Every cycle found is a cycle end (a Queen card at N, N-2 recorded without one). Along ascending keys, the cycles are ascending. |
| `Cycles.CyclesOfComplete` | handlers.py:136-161 | Every cycle end among the scanned keys is found. |
| `Cycles.CycleGamesAreCycleEnds` | handlers.py:136-161 | The games of the cycles found are exactly the cycle ends of the history. |
| `Cycles.IncreasingGamesCount` | handlers.py:155-161 | An ascending list of cycles has as many distinct games as entries. |
| `Cycles.CycleCount` | handlers.py:133-170 | The count shown is the number of cycle ends in the history. |
| `Cycles.RowsOf` | handlers.py:123-128 | One listing row per key, in order, read from that key's entry. |
| `Cycles.LastN` | handlers.py:123 | `q[-n:]` has min(len, n) elements and is the tail of `q`. |
| `Cycles.NewestKeys` | handlers.py:119-123 | The last keys of an ascending list are ascending, and every key above one of them is among them. |
| `Cycles.NewestRows` | handlers.py:119-128 | The listing has min(size, 10) rows, each the row of a recorded game, in the order of the last ten sorted keys. |
| `Cycles.NewestRowsAscending` | handlers.py:119-128 | The listing is in ascending game order. |
| `Cycles.NewestRowsComplete` | handlers.py:119-128 | A recorded game above a listed one is listed after it, so the listing holds the newest draws. |
| `Cycles.AllCycles` | handlers.py:133-161 | There are as many cycles as cycle ends in the history, all sound, in ascending order. |
| `Cycles.LastCycles` | handlers.py:163-164 | The cycles shown are the last min(count, 5), still sound and ascending. |
| `Cycles.InterAnalysis` | handlers.py:111-195 | Fewer than 3 draws gives the insufficient-history reply. Otherwise the report holds the history size, the newest rows, the exact cycle count and the last five of all cycles in ascending order. The headline is "mode required" if and only if there are cycles and the streak is at least 2, and "no valid cycle" if and only if there are none. |
| `Handlers.HandleDefaut` | handlers.py:43-46 | `/defaut` switches the mode off, clears the streak and confirms in the issuing chat. |
| `Handlers.DefautSilencesGate` | handlers.py:43-46 | After `/defaut` the gate refuses every text. |
| `Handlers.HandleButton` | handlers.py:198-212 | OUI switches the mode on and clears the streak. NON switches it off and keeps the streak. Any other data changes nothing. The press is always answered and the prompt edited with the matching reply. |
| `Handlers.ButtonIdempotent` | handlers.py:198-212 | Pressing the same button twice leaves the state as pressing it once. |
| `Handlers.PrefixesDiffer` | handlers.py:277-289 | Two prefixes that differ at some index never both start one text, so the command chain picks one. |
| `Handlers.HandleCommand` | handlers.py:277-289 | Only `/defaut` changes the state. At most one reply goes out, to the issuing chat. `/inter` replies with the analysis of the current history and streak. |
| `Handlers.HandleCommandKeepsValid` | handlers.py:277-289 | Commands keep the state valid. |
| `Handlers.HandlerRecord` | handlers.py:236-252 | The handler's own history insert happens exactly for texts with a game number. |
| `Handlers.PredictStep` | handlers.py:270-274 | When the gate refuses, the state and the outgoing messages are untouched. When it fires, the prediction built from the gate's game and value is stored and its text is posted, alone, to the prediction channel. The streak, mode and history are untouched. |
| `Handlers.PredictStepKeepsValid` | handlers.py:270-274 | Gate plus prediction keeps the state valid. |
| `Handlers.VerificationNotice` | handlers.py:263-268 | A notice goes to the prediction channel exactly for an edit result, carrying its game and new text; any other result posts nothing. |
| `Handlers.SourceMessage` | handlers.py:233-274 | On the threshold signal the update ends with the verification state; the only message is the analysis to the admin chat, and there is none when no admin chat is set. Otherwise the result is the verification notice, if any, followed by what the prediction step does on the verified state. At most two messages go out, and a prediction is always the last. |
| `Handlers.SourceRecordsOnce` | handlers.py:236-254 | The double insert of a finalised draw (handler, then verification) leaves the history as one insert would. |
| `Handlers.ThresholdStopsPrediction` | handlers.py:256-261 | After the threshold signal only the admin analysis goes out, the gate has not consumed the text, and the streak is exactly 2. |
| `Handlers.NoticeOrPrediction` | handlers.py:254-274 | One source message never produces both a verification notice and a new prediction. |
| `Handlers.SourceMessageKeepsValid` | handlers.py:233-274 | A source message keeps the state valid. |
| `Handlers.ProcessUpdate` | handlers.py:216-300 | A source-channel message goes to the source branch, a `/` command from another chat outside the prediction channel goes to the command handler, a button press goes to the button handler, and everything else is ignored. Replies to a message from another chat go only to that chat, and the set of texts already used by the gate only grows. |
| `Handlers.ProcessUpdateKeepsValid` | handlers.py:216-300 | Every update keeps the state valid: at most ten history entries with non-empty groups, and every announcement still carrying its slot. |
| `Handlers.RunKeepsProcessed` | handlers.py:216-300 | Over any run of updates the set of texts used by the gate never loses a text. |
| `Handlers.RunKeepsValid` | handlers.py:216-300 | Any run of updates from a valid state ends in a valid state. |
| `Handlers.NoRepeatPrediction` | card_predictor.py:134-139 | Once a text has fired the gate, it never fires again after any run of later updates. |

## Left out

- Transport: the Telegram client, the webhook and polling entry points
  (main.py, main_polling.py, main_render_webhook.py, bot.py) and the loading
  of `Config` (config.py) are not part of this model. The three chat ids are
  a `Config` parameter, and an empty admin id stands for "not configured".
- Outgoing calls (`send_message`, `edit_message_text`, `answer_callback_query`)
  are returned as `Action` values. Their Markdown bodies and the help, start
  and status texts are not rendered; the status action carries the values the
  text is built from.
- `/inter` sends either one insufficient-history notice (fewer than three
  draws) or two messages: the history listing, then the cycle analysis with
  the yes/no keyboard. Each case becomes one `SendInter` action carrying the
  `InterReport` value (`InsufficientHistory` or `Report`) the texts are
  built from.
- `/deploy` runs a subprocess and uploads a file, so it becomes a `RunDeploy`
  action.
- `time.time()` and `last_prediction_time` are left out: nothing in the core
  reads the time stamp.
- `hash()` deduplication is modelled as a set of exact texts, so hash
  collisions are not modelled.
- Unicode: `\b` and `\d` are judged on ASCII only, whereas Python's `re` also
  accepts non-ASCII letters and digits.
- Logging is not modelled.
- The Python fallbacks `draw.get(..., 'N/A')` are not modelled: every stored
  entry has all its fields.
- `process_update` returns early when a message payload is present but empty.
  `Update` has no such value, so the case is not modelled.
- Predictions are never removed in the source, so the map is unbounded here
  too.
- The `continue` after the offset tests of `verify_prediction`
  (card_predictor.py:229-230) is unreachable, because the three tests cover
  every offset. The model has no such branch.
- `make_prediction`'s `IndexError` is modelled (`MakePrediction` returns
  `Err`), but `MakePredictionFromGate` shows the gate's value never takes
  that path.

=== FILE: cycles.dfy ===
/** The Queen cycle analysis of `handle_inter_command` (handlers.py): a
    draw whose first group shows a Queen card, two games after a recorded
    draw whose first group shows none, is a cycle (N-2) -> (N). */
module Cycles {
  import opened Wrappers
  import opened Extract
  import opened Ordered
  import opened History
  import opened Predictor

  /** Fewer recorded draws than this give no analysis. */
  const MinHistory: nat := 3

  /** How many history lines and how many cycles the report shows. */
  const RowsShown: nat := 10
  const CyclesShown: nat := 5

  /** One line of the history listing. */
  datatype HistoryRow = HistoryRow(game: int, firstTwoCards: Option<string>, firstGroup: string, hasQueen: bool)

  /** One detected cycle: the trigger game and its first two cards, the Queen
      card seen at `game`. */
  datatype Cycle = Cycle(trigger: int, triggerCards: Option<string>, queenCard: string, game: int)

  datatype Headline = ModeRequired | CycleAnalysis | NoValidCycle

  /** What the admin is shown. A report always ends with the yes/no prompt. */
  datatype InterReport =
    | InsufficientHistory
    | Report(size: nat, rows: seq<HistoryRow>, cycleCount: nat, shown: seq<Cycle>, headline: Headline)

  /** A cycle ends at `g`: a Queen card in the first group of `g`, a recorded
      draw at `g - 2`, and no Queen card in that draw's first group. */
  predicate IsCycleAt(h: DrawHistory, g: int) {
    && g in h
    && QueenCard(h[g].firstGroup).Some?
    && g - 2 in h
    && QueenCard(h[g - 2].firstGroup).None?
  }

  function CycleAt(h: DrawHistory, g: int): (c: Cycle)
    requires IsCycleAt(h, g)
    ensures c.game == g && c.trigger == g - 2
    ensures c.triggerCards == h[g - 2].firstTwoCards
    ensures Some(c.queenCard) == QueenCard(h[g].firstGroup)
  {
    Cycle(g - 2, h[g - 2].firstTwoCards, QueenCard(h[g].firstGroup).value, g)
  }

  predicate CycleGamesIncrease(cs: seq<Cycle>) {
    forall i, j :: 0 <= i < j < |cs| ==> cs[i].game < cs[j].game
  }

  /** The cycles found along `keys`, in the order of `keys`. */
  function CyclesOf(h: DrawHistory, keys: seq<int>): (cs: seq<Cycle>)
    ensures |cs| <= |keys|
    ensures forall i :: 0 <= i < |cs| ==> IsCycleAt(h, cs[i].game) && cs[i] == CycleAt(h, cs[i].game)
    ensures StrictlyIncreasing(keys) ==> CycleGamesIncrease(cs)
    ensures StrictlyIncreasing(keys) ==> forall i :: 0 <= i < |cs| ==> keys[0] <= cs[i].game
    decreases |keys|
  {
    if |keys| == 0 then []
    else
      var rest := CyclesOf(h, keys[1..]);
      if IsCycleAt(h, keys[0]) then
        var cs := [CycleAt(h, keys[0])] + rest;
        assert forall i :: 0 <= i < |rest| ==> cs[i + 1] == rest[i];
        cs
      else rest
  }

  /** Every cycle end among `keys` is found. */
  lemma {:induction false} CyclesOfComplete(h: DrawHistory, keys: seq<int>, g: int)
    requires g in keys && IsCycleAt(h, g)
    ensures exists i :: 0 <= i < |CyclesOf(h, keys)| && CyclesOf(h, keys)[i].game == g
    decreases |keys|
  {
    var cs := CyclesOf(h, keys);
    if keys[0] != g {
      assert g in keys[1..];
      CyclesOfComplete(h, keys[1..], g);
      var rest := CyclesOf(h, keys[1..]);
      var i :| 0 <= i < |rest| && rest[i].game == g;
      if IsCycleAt(h, keys[0]) {
        assert cs == [CycleAt(h, keys[0])] + rest;
        assert cs[i + 1].game == g;
      } else {
        assert cs == rest;
        assert cs[i].game == g;
      }
    } else {
      assert cs == [CycleAt(h, g)] + CyclesOf(h, keys[1..]);
      assert cs[0].game == g;
    }
  }

  /** The games of the found cycles are exactly the cycle ends among `keys`. */
  lemma CycleGamesAreCycleEnds(h: DrawHistory, keys: seq<int>)
    requires forall g :: g in h ==> g in keys
    ensures (set i | 0 <= i < |CyclesOf(h, keys)| :: CyclesOf(h, keys)[i].game) == (set g | g in h && IsCycleAt(h, g))
  {
    var cs := CyclesOf(h, keys);
    var found := set i | 0 <= i < |cs| :: cs[i].game;
    var ends := set g | g in h && IsCycleAt(h, g);
    forall g | g in ends
      ensures g in found
    {
      CyclesOfComplete(h, keys, g);
      var i :| 0 <= i < |cs| && cs[i].game == g;
    }
  }

  /** A strictly increasing list of cycles lists as many cycles as it has games. */
  lemma {:induction false} IncreasingGamesCount(cs: seq<Cycle>)
    requires CycleGamesIncrease(cs)
    ensures |set i | 0 <= i < |cs| :: cs[i].game| == |cs|
    decreases |cs|
  {
    if |cs| > 0 {
      var rest := cs[1..];
      IncreasingGamesCount(rest);
      var all := set i | 0 <= i < |cs| :: cs[i].game;
      var tail := set i | 0 <= i < |rest| :: rest[i].game;
      assert all == {cs[0].game} + tail by {
        forall g | g in all
          ensures g in {cs[0].game} + tail
        {
          var i :| 0 <= i < |cs| && cs[i].game == g;
          if i > 0 {
            assert rest[i - 1].game == g;
          }
        }
      }
      assert cs[0].game !in tail;
    }
  }

  /** The number of cycles counted is the number of cycle ends in the history. */
  lemma CycleCount(h: DrawHistory)
    ensures |CyclesOf(h, Sorted(h.Keys))| == |set g | g in h && IsCycleAt(h, g)|
  {
    var keys := Sorted(h.Keys);
    var cs := CyclesOf(h, keys);
    CycleGamesAreCycleEnds(h, keys);
    IncreasingGamesCount(cs);
  }

  function RowOf(h: DrawHistory, g: int): HistoryRow
    requires g in h
  {
    HistoryRow(g, h[g].firstTwoCards, h[g].firstGroup, QueenCard(h[g].firstGroup).Some?)
  }

  /** One row per game of `keys`, in order. */
  function RowsOf(h: DrawHistory, keys: seq<int>): (rows: seq<HistoryRow>)
    requires forall i :: 0 <= i < |keys| ==> keys[i] in h
    ensures |rows| == |keys|
    ensures forall i :: 0 <= i < |keys| ==> rows[i] == RowOf(h, keys[i])
    decreases |keys|
  {
    if |keys| == 0 then [] else [RowOf(h, keys[0])] + RowsOf(h, keys[1..])
  }

  /** Python's `q[-n:]`: the last `n` elements, or all of them. */
  function LastN<T>(q: seq<T>, n: nat): (r: seq<T>)
    ensures |r| == Min(|q|, n)
    ensures r == q[|q| - |r|..]
  {
    if |q| <= n then q else q[|q| - n..]
  }

  lemma SortedKeyIn(h: DrawHistory, i: int)
    requires 0 <= i < |Sorted(h.Keys)|
    ensures Sorted(h.Keys)[i] in h
  {
  }

  /** The newest keys are keys of the history. */
  lemma NewestIn(h: DrawHistory)
    ensures forall i :: 0 <= i < |LastN(Sorted(h.Keys), RowsShown)| ==> LastN(Sorted(h.Keys), RowsShown)[i] in h
  {
    var keys := Sorted(h.Keys);
    var newest := LastN(keys, RowsShown);
    forall i | 0 <= i < |newest|
      ensures newest[i] in h
    {
      assert newest[i] == keys[|keys| - |newest| + i];
      SortedKeyIn(h, |keys| - |newest| + i);
    }
  }

  /** The history listing: one row for each of the newest draws. */
  function NewestRows(h: DrawHistory): (rows: seq<HistoryRow>)
    ensures |rows| == Min(|h|, RowsShown)
    ensures forall i :: 0 <= i < |rows| ==> rows[i].game in h && rows[i] == RowOf(h, rows[i].game)
    ensures forall i :: 0 <= i < |rows| ==> rows[i].game == LastN(Sorted(h.Keys), RowsShown)[i]
  {
    var newest := LastN(Sorted(h.Keys), RowsShown);
    NewestIn(h);
    RowsOf(h, newest)
  }

  /** The listing is in ascending order of game number. */
  lemma NewestRowsAscending(h: DrawHistory)
    ensures forall i, j :: 0 <= i < j < |NewestRows(h)| ==> NewestRows(h)[i].game < NewestRows(h)[j].game
  {
    NewestKeys(Sorted(h.Keys), RowsShown);
  }

  /** The listing holds the newest draws: every recorded game above a
      listed one is listed after it. */
  lemma NewestRowsComplete(h: DrawHistory, g: int, i: int)
    requires g in h && 0 <= i < |NewestRows(h)| && g > NewestRows(h)[i].game
    ensures exists j :: i < j < |NewestRows(h)| && NewestRows(h)[j].game == g
  {
    var rows := NewestRows(h);
    var keys := Sorted(h.Keys);
    var newest := LastN(keys, RowsShown);
    assert g in keys;
    NewestKeys(keys, RowsShown);
    assert rows[i].game == newest[i];
    var j :| i < j < |newest| && newest[j] == g;
    assert rows[j].game == g;
  }

  /** All cycles of the history, in ascending order of their Queen game. */
  function AllCycles(h: DrawHistory): (cs: seq<Cycle>)
    ensures |cs| == |set g | g in h && IsCycleAt(h, g)|
    ensures forall i :: 0 <= i < |cs| ==> IsCycleAt(h, cs[i].game) && cs[i] == CycleAt(h, cs[i].game)
    ensures CycleGamesIncrease(cs)
  {
    CycleCount(h);
    CyclesOf(h, Sorted(h.Keys))
  }

  /** The last cycles of an ascending list are still cycles, still ascending. */
  function LastCycles(h: DrawHistory, cs: seq<Cycle>): (r: seq<Cycle>)
    requires forall i :: 0 <= i < |cs| ==> IsCycleAt(h, cs[i].game) && cs[i] == CycleAt(h, cs[i].game)
    requires CycleGamesIncrease(cs)
    ensures |r| == Min(|cs|, CyclesShown)
    ensures forall i :: 0 <= i < |r| ==> IsCycleAt(h, r[i].game) && r[i] == CycleAt(h, r[i].game)
    ensures CycleGamesIncrease(r)
    ensures r == cs[|cs| - |r|..]
    ensures r == LastN(cs, CyclesShown)
  {
    var r := LastN(cs, CyclesShown);
    assert forall i :: 0 <= i < |r| ==> r[i] == cs[|cs| - |r| + i];
    r
  }

  /** `handle_inter_command`: too little history is reported as such;
      otherwise the newest draws are listed, all cycles (N-2) -> (N) are
      counted and the last five shown, and the headline asks for the
      intelligent mode when cycles exist and the failure streak has reached
      the threshold. */
  function InterAnalysis(h: DrawHistory, failures: nat): (r: InterReport)
    ensures r.InsufficientHistory? <==> |h| < MinHistory
    ensures r.Report? ==> r.size == |h| && r.rows == NewestRows(h) && |r.rows| == Min(|h|, RowsShown)
    ensures r.Report? ==> r.cycleCount == |set g | g in h && IsCycleAt(h, g)|
    ensures r.Report? ==> |r.shown| == Min(r.cycleCount, CyclesShown)
    ensures r.Report? ==> r.shown == LastN(AllCycles(h), CyclesShown)
    ensures r.Report? ==> forall i :: 0 <= i < |r.shown| ==> IsCycleAt(h, r.shown[i].game) && r.shown[i] == CycleAt(h, r.shown[i].game)
    ensures r.Report? ==> CycleGamesIncrease(r.shown)
    ensures r.Report? ==> (r.headline == ModeRequired <==> r.cycleCount > 0 && failures >= MaxFailures)
    ensures r.Report? ==> (r.headline == NoValidCycle <==> r.cycleCount == 0)
  {
    if |h| < MinHistory then InsufficientHistory
    else
      var cycles := AllCycles(h);
      var headline :=
        if |cycles| == 0 then NoValidCycle
        else if failures >= MaxFailures then ModeRequired
        else CycleAnalysis;
      Report(|h|, NewestRows(h), |cycles|, LastCycles(h, cycles), headline)
  }

  /** In an ascending list a smaller element comes first. */
  lemma IncreasingIndex(q: seq<int>, a: int, b: int)
    requires StrictlyIncreasing(q)
    requires 0 <= a < |q| && 0 <= b < |q| && q[a] < q[b]
    ensures a < b
  {
  }

  /** The last `n` keys of an ascending list are ascending, and every key
      above one of them is among them. */
  lemma NewestKeys(keys: seq<int>, n: nat)
    requires StrictlyIncreasing(keys)
    ensures StrictlyIncreasing(LastN(keys, n))
    ensures forall g, i :: g in keys && 0 <= i < |LastN(keys, n)| && g > LastN(keys, n)[i] ==>
      exists j :: i < j < |LastN(keys, n)| && LastN(keys, n)[j] == g
  {
    var r := LastN(keys, n);
    var off := |keys| - |r|;
    assert r == keys[off..];
    assert forall i :: 0 <= i < |r| ==> r[i] == keys[off + i];
    forall g, i | g in keys && 0 <= i < |r| && g > r[i]
      ensures exists j :: i < j < |r| && r[j] == g
    {
      var m :| 0 <= m < |keys| && keys[m] == g;
      IncreasingIndex(keys, off + i, m);
      assert r[m - off] == g;
    }
  }
}

=== FILE: extract.dfy ===
/** The text scanners of `CardPredictor` (card_predictor.py): each regular
    expression of the source is an explicit scanner over `seq<char>`, and each
    scanner's contract relates it to a declarative reference predicate. */
module Extract {
  import opened Wrappers
  import opened Text

  // ---------------------------------------------------------------------
  // extract_game_number: `#[nN](\d+)\.?`
  // ---------------------------------------------------------------------

  /** The regex `#[nN]\d` can start matching at index `i`. */
  predicate GameMarkerAt(s: string, i: nat) {
    i + 2 < |s| && s[i] == '#' && (s[i + 1] == 'n' || s[i + 1] == 'N') && IsDigit(s[i + 2])
  }

  /** End of the maximal run of digits starting at `from` (the greedy `\d+`). */
  function DigitRunEnd(s: string, from: nat): (e: nat)
    requires from <= |s|
    ensures from <= e <= |s|
    ensures forall k :: from <= k < e ==> IsDigit(s[k])
    ensures e == |s| || !IsDigit(s[e])
    decreases |s| - from
  {
    if from == |s| || !IsDigit(s[from]) then from else DigitRunEnd(s, from + 1)
  }

  /** Leftmost index at or after `from` where the game marker starts. */
  function FindGameMarker(s: string, from: nat): (r: Option<nat>)
    ensures r.Some? ==> from <= r.value && GameMarkerAt(s, r.value)
    ensures r.Some? ==> forall j :: from <= j < r.value ==> !GameMarkerAt(s, j)
    ensures r.None? ==> forall j :: from <= j ==> !GameMarkerAt(s, j)
    decreases |s| - from
  {
    if from >= |s| then None
    else if GameMarkerAt(s, from) then Some(from)
    else FindGameMarker(s, from + 1)
  }

  /** `extract_game_number`: the digits after the leftmost `#n`/`#N` marker,
      read as a number; `None` when the text has no marker. */
  function ExtractGameNumber(s: string): (r: Option<nat>)
    ensures r.None? <==> forall j :: !GameMarkerAt(s, j)
  {
    match FindGameMarker(s, 0)
    case None => None
    case Some(i) =>
      var e := DigitRunEnd(s, i + 2);
      Some(DigitsValue(s[i + 2..e]))
  }

  /** A marker written after a `#`-free prefix and followed by a non-digit is
      read back exactly: `ExtractGameNumber` inverts the rendering of a number. */
  lemma GameNumberRoundTrip(prefix: string, letter: char, n: nat, suffix: string)
    requires '#' !in prefix
    requires letter == 'n' || letter == 'N'
    requires |suffix| == 0 || !IsDigit(suffix[0])
    ensures ExtractGameNumber(prefix + ['#', letter] + NatToDecimal(n) + suffix) == Some(n)
  {
    var d := NatToDecimal(n);
    var s := prefix + ['#', letter] + d + suffix;
    var p := |prefix|;
    assert s[p] == '#' && s[p + 1] == letter && s[p + 2] == d[0];
    assert GameMarkerAt(s, p);
    forall j: nat | j < p
      ensures !GameMarkerAt(s, j)
    {
      assert s[j] == prefix[j];
    }
    var r := FindGameMarker(s, 0);
    assert r == Some(p);
    var e := DigitRunEnd(s, p + 2);
    assert forall k :: 0 <= k < |d| ==> s[p + 2 + k] == d[k];
    assert e == p + 2 + |d| by {
      assert forall k :: p + 2 <= k < p + 2 + |d| ==> IsDigit(s[k]);
      assert p + 2 + |d| == |s| || (s[p + 2 + |d|] == suffix[0] && !IsDigit(s[p + 2 + |d|]));
    }
    assert s[p + 2..e] == d;
    DecimalRoundTrip(n);
  }

  // ---------------------------------------------------------------------
  // extract_first_group_content: `\(.*?\)` then `.strip('()')`
  // ---------------------------------------------------------------------

  /** `s[i..k+1]` is a match of `\(.*?\)`: an opening parenthesis, then the
      nearest closing one, with no newline in between (`.` excludes '\n'). */
  predicate GroupSpan(s: string, i: nat, k: nat) {
    && i < k < |s|
    && s[i] == '(' && s[k] == ')'
    && forall m :: i < m < k ==> s[m] != ')' && s[m] != '\n'
  }

  /** First index at or after `from` holding ')' or '\n' (or `|s|`). */
  function NextCloseOrBreak(s: string, from: nat): (k: nat)
    requires from <= |s|
    ensures from <= k <= |s|
    ensures k < |s| ==> s[k] == ')' || s[k] == '\n'
    ensures forall m :: from <= m < k ==> s[m] != ')' && s[m] != '\n'
    decreases |s| - from
  {
    if from == |s| || s[from] == ')' || s[from] == '\n' then from else NextCloseOrBreak(s, from + 1)
  }

  /** Leftmost match of `\(.*?\)` starting at or after `from`, as (open, close). */
  function FindGroup(s: string, from: nat): (r: Option<(nat, nat)>)
    ensures r.Some? ==> from <= r.value.0 && GroupSpan(s, r.value.0, r.value.1)
    ensures r.Some? ==> forall j, k :: from <= j < r.value.0 ==> !GroupSpan(s, j, k)
    ensures r.None? ==> forall j, k :: from <= j ==> !GroupSpan(s, j, k)
    decreases |s| - from
  {
    if from >= |s| then None
    else if s[from] == '(' && NextCloseOrBreak(s, from + 1) < |s| && s[NextCloseOrBreak(s, from + 1)] == ')' then
      Some((from, NextCloseOrBreak(s, from + 1)))
    else
      FindGroup(s, from + 1)
  }

  /** The closing parenthesis of a match is determined by its opening one. */
  lemma GroupSpanUnique(s: string, i: nat, k1: nat, k2: nat)
    requires GroupSpan(s, i, k1) && GroupSpan(s, i, k2)
    ensures k1 == k2
  {
  }

  /** `s[i..k+1]` is the match `re.search` reports: no match opens before `i`. */
  ghost predicate FirstGroupSpan(s: string, i: nat, k: nat) {
    && GroupSpan(s, i, k)
    && forall j: nat, k': nat :: j < i ==> !GroupSpan(s, j, k')
  }

  /** `extract_first_group_content`: the first parenthesised group on one
      line, with all surrounding '(' and ')' stripped; `None` without a group. */
  function ExtractFirstGroup(s: string): (r: Option<string>)
    ensures r.None? <==> forall i, k :: !GroupSpan(s, i, k)
    ensures r.Some? ==> forall m :: 0 <= m < |r.value| ==> r.value[m] != ')' && r.value[m] != '\n'
    ensures r.Some? ==> |r.value| == 0 || (!IsParen(r.value[0]) && !IsParen(r.value[|r.value| - 1]))
  {
    match FindGroup(s, 0)
    case None => None
    case Some((i, k)) =>
      StripGroupInterior(s[i..k + 1]);
      Some(StripParens(s[i..k + 1]))
  }

  /** The group reported is the leftmost match of `\(.*?\)`, stripped. */
  lemma FirstGroupIsLeftmost(s: string)
    requires ExtractFirstGroup(s).Some?
    ensures exists i: nat, k: nat :: FirstGroupSpan(s, i, k) && ExtractFirstGroup(s).value == StripParens(s[i..k + 1])
  {
    var (i, k) := FindGroup(s, 0).value;
    assert FirstGroupSpan(s, i, k);
  }

  /** Stripping a match of `\(.*?\)` leaves neither ')' nor '\n': the only
      ')' of the match is its last character, which strip removes. */
  lemma StripGroupInterior(t: string)
    requires |t| >= 2 && t[0] == '(' && t[|t| - 1] == ')'
    requires forall m :: 0 < m < |t| - 1 ==> t[m] != ')' && t[m] != '\n'
    ensures forall m :: 0 <= m < |StripParens(t)| ==> StripParens(t)[m] != ')' && StripParens(t)[m] != '\n'
  {
    var g := StripParens(t);
    var a: nat :| StrippedAt(t, g, a);
    forall m | 0 <= m < |g|
      ensures g[m] != ')' && g[m] != '\n'
    {
      assert g[m] == t[a + m];
      assert g[|g| - 1] == t[a + |g| - 1];
    }
  }

  /** A group written after a '('-free prefix is read back exactly, whatever follows it. */
  lemma FirstGroupRoundTrip(prefix: string, content: string, suffix: string)
    requires '(' !in prefix
    requires forall m :: 0 <= m < |content| ==> !IsParen(content[m]) && content[m] != '\n'
    ensures ExtractFirstGroup(prefix + "(" + content + ")" + suffix) == Some(content)
  {
    var s := prefix + "(" + content + ")" + suffix;
    var p := |prefix|;
    var k := p + |content| + 1;
    assert s[p] == '(' && s[k] == ')';
    assert forall m :: p < m < k ==> s[m] == content[m - p - 1];
    assert GroupSpan(s, p, k);
    forall j: nat, k': nat | j < p
      ensures !GroupSpan(s, j, k')
    {
      assert s[j] == prefix[j];
    }
    var r := FindGroup(s, 0);
    assert r.Some? && r.value.0 == p;
    GroupSpanUnique(s, p, r.value.1, k);
    assert s[p..k + 1] == "(" + content + ")";
    StripWrapped(content);
  }

  /** Stripping the parentheses around a parenthesis-free text gives the text back. */
  lemma StripWrapped(content: string)
    requires forall m :: 0 <= m < |content| ==> !IsParen(content[m])
    ensures StripParens("(" + content + ")") == content
  {
    var t := "(" + content + ")";
    if |content| == 0 {
      assert LeadingParens(t[1..][1..]) == 0;
      assert LeadingParens(t) == 2;
    } else {
      assert t[1..][0] == content[0];
      assert LeadingParens(t[1..]) == 0;
      assert LeadingParens(t) == 1;
      var u := t[..|t| - 1];
      assert u[|u| - 1] == content[|content| - 1];
      assert TrailingParens(u) == 0;
      assert TrailingParens(t) == 1;
      assert t[1..|t| - 1] == content;
    }
  }

  // ---------------------------------------------------------------------
  // extract_first_two_cards_with_value: `[AKQJ\d]+[♥️♠️♦️♣️❤️]` via findall
  // ---------------------------------------------------------------------

  /** A rank character of the card pattern (upper-case figures and digits). */
  predicate IsRank(c: char) {
    c == 'A' || c == 'K' || c == 'Q' || c == 'J' || IsDigit(c)
  }

  /** The suit class of the card pattern. Written with emoji presentation in
      the source, the class also holds the variation selector U+FE0F. */
  predicate IsSuit(c: char) {
    c == '\U{2665}' || c == '\U{2660}' || c == '\U{2666}' || c == '\U{2663}' || c == '\U{2764}' || c == '\U{FE0F}'
  }

  /** One card token: one or more ranks followed by one suit character. */
  predicate IsCardToken(t: string) {
    && |t| >= 2
    && (forall m :: 0 <= m < |t| - 1 ==> IsRank(t[m]))
    && IsSuit(t[|t| - 1])
  }

  /** Length of the maximal run of rank characters at the front of `s`. */
  function RankRun(s: string): (n: nat)
    ensures n <= |s|
    ensures forall m :: 0 <= m < n ==> IsRank(s[m])
    ensures n == |s| || !IsRank(s[n])
    decreases |s|
  {
    if |s| == 0 || !IsRank(s[0]) then 0 else 1 + RankRun(s[1..])
  }

  /** Length of the card-pattern match at the very start of `s`, if any. The
      greedy rank run cannot give back a character to a suit, so the match is
      the whole run plus the suit that follows it. */
  function CardMatchLen(s: string): (r: Option<nat>)
    ensures r.Some? ==> 2 <= r.value <= |s| && IsCardToken(s[..r.value])
    ensures r.None? ==> forall n :: 2 <= n <= |s| ==> !IsCardToken(s[..n])
  {
    var n := RankRun(s);
    if n > 0 && n < |s| && IsSuit(s[n]) then Some(n + 1)
    else
      NoCardMatch(s);
      None
  }

  /** When the rank run at the front is empty, runs to the end, or is not
      followed by a suit, no prefix of `s` is a card token. */
  lemma NoCardMatch(s: string)
    requires !(0 < RankRun(s) < |s| && IsSuit(s[RankRun(s)]))
    ensures forall m :: 2 <= m <= |s| ==> !IsCardToken(s[..m])
  {
    forall m | 2 <= m <= |s|
      ensures !IsCardToken(s[..m])
    {
      NoCardOfLength(s, m);
    }
  }

  lemma NoCardOfLength(s: string, m: nat)
    requires 2 <= m <= |s|
    requires !(0 < RankRun(s) < |s| && IsSuit(s[RankRun(s)]))
    ensures !IsCardToken(s[..m])
  {
    var n := RankRun(s);
    var t := s[..m];
    assert |t| == m;
    if m - 1 < n {
      // the last character is still a rank, so not a suit
      assert t[m - 1] == s[m - 1];
      RankIsNoSuit(s[m - 1]);
      assert !IsSuit(t[|t| - 1]);
    } else if m - 1 > n {
      // a non-rank character sits before the last one
      assert t[n] == s[n];
      assert !IsRank(t[n]);
    } else {
      // the run ends right before the last character, which is no suit
      assert t[m - 1] == s[n];
      assert !IsSuit(t[|t| - 1]);
    }
  }

  lemma RankIsNoSuit(c: char)
    requires IsRank(c)
    ensures !IsSuit(c)
  {
  }

  /** Python's `re.findall` of the card pattern: matches left to right,
      resuming after each match, or one character on from a failed start. */
  function CardTokens(s: string): (r: seq<string>)
    ensures forall m :: 0 <= m < |r| ==> IsCardToken(r[m])
    decreases |s|
  {
    if |s| == 0 then []
    else match CardMatchLen(s)
      case Some(n) => [s[..n]] + CardTokens(s[n..])
      case None => CardTokens(s[1..])
  }

  /** A card token at the front of the text is the first token found. */
  lemma CardTokensCons(t: string, rest: string)
    requires IsCardToken(t)
    ensures CardTokens(t + rest) == [t] + CardTokens(rest)
  {
    var s := t + rest;
    assert s[..|t|] == t;
    var n := RankRun(s);
    assert forall m :: 0 <= m < |t| ==> s[m] == t[m];
    assert n == |t| - 1;
    assert s[|t|..] == rest;
  }

  /** `extract_first_two_cards_with_value`: the concatenation of the first two
      card tokens of the first group; `None` without a group or with fewer than
      two tokens. */
  function ExtractFirstTwoCards(s: string): (r: Option<string>)
    ensures r.Some? <==> ExtractFirstGroup(s).Some? && |CardTokens(ExtractFirstGroup(s).value)| >= 2
    ensures r.Some? ==> exists t1, t2 :: IsCardToken(t1) && IsCardToken(t2) && r.value == t1 + t2
  {
    match ExtractFirstGroup(s)
    case None => None
    case Some(g) =>
      var ts := CardTokens(g);
      if |ts| >= 2 then
        assert IsCardToken(ts[0]) && IsCardToken(ts[1]);
        Some(ts[0] + ts[1])
      else None
  }

  /** Where no card starts, `findall` moves on by one character. */
  lemma CardTokensSkip(s: string)
    requires |s| > 0 && CardMatchLen(s).None?
    ensures CardTokens(s) == CardTokens(s[1..])
  {
  }

  /** Text without rank characters yields no token and hides none of the
      tokens after it: the emoji variation selector after a suit, spaces and
      commas between cards are all skipped. */
  lemma {:induction false} CardTokensSkipSeparator(sep: string, rest: string)
    requires forall m :: 0 <= m < |sep| ==> !IsRank(sep[m])
    ensures CardTokens(sep + rest) == CardTokens(rest)
    decreases |sep|
  {
    if |sep| > 0 {
      var s := sep + rest;
      assert s[0] == sep[0];
      assert RankRun(s) == 0;
      CardTokensSkip(s);
      assert s[1..] == sep[1..] + rest;
      CardTokensSkipSeparator(sep[1..], rest);
    } else {
      assert sep + rest == rest;
    }
  }

  /** Text without rank characters holds no card token: `findall` comes to
      the end of the text with nothing found. */
  lemma {:induction false} NoRankNoTokens(sep: string)
    requires forall m :: 0 <= m < |sep| ==> !IsRank(sep[m])
    ensures CardTokens(sep) == []
  {
    CardTokensSkipSeparator(sep, "");
    assert sep + "" == sep;
  }

  /** A card after rank-free text is the first token found. */
  lemma SeparatedToken(lead: string, t: string, rest: string)
    requires IsCardToken(t)
    requires forall m :: 0 <= m < |lead| ==> !IsRank(lead[m])
    ensures CardTokens(lead + (t + rest)) == [t] + CardTokens(rest)
  {
    CardTokensSkipSeparator(lead, t + rest);
    CardTokensCons(t, rest);
  }

  /** Two cards, each after rank-free text, are the first two tokens found. */
  lemma FirstTwoTokens(lead: string, t1: string, gap: string, t2: string, rest: string)
    requires IsCardToken(t1) && IsCardToken(t2)
    requires forall m :: 0 <= m < |lead| ==> !IsRank(lead[m])
    requires forall m :: 0 <= m < |gap| ==> !IsRank(gap[m])
    ensures CardTokens(lead + t1 + gap + t2 + rest) == [t1, t2] + CardTokens(rest)
  {
    var tail := gap + (t2 + rest);
    var x := lead + t1 + gap + t2 + rest;
    assert x == lead + (t1 + tail);
    SeparatedToken(lead, t1, tail);
    SeparatedToken(gap, t2, rest);
    ConsTwo(t1, t2, CardTokens(rest));
  }

  lemma ConsTwo<T>(a: T, b: T, q: seq<T>)
    ensures [a] + ([b] + q) == [a, b] + q
  {
  }

  /** Text a one-line group may hold: no parenthesis, no newline. */
  predicate Bare(x: string) {
    forall m :: 0 <= m < |x| ==> !IsParen(x[m]) && x[m] != '\n'
  }

  lemma BareConcat(a: string, b: string)
    requires Bare(a) && Bare(b)
    ensures Bare(a + b)
  {
    forall m | 0 <= m < |a + b|
      ensures !IsParen((a + b)[m]) && (a + b)[m] != '\n'
    {
      if m >= |a| {
        assert (a + b)[m] == b[m - |a|];
      }
    }
  }

  /** The first two cards of the first group are what the extractor reports,
      whatever rank-free text comes before and between them. */
  lemma FirstTwoCardsRoundTrip(prefix: string, lead: string, t1: string, gap: string, t2: string, rest: string, suffix: string)
    requires '(' !in prefix
    requires IsCardToken(t1) && IsCardToken(t2)
    requires Bare(lead) && forall m :: 0 <= m < |lead| ==> !IsRank(lead[m])
    requires Bare(gap) && forall m :: 0 <= m < |gap| ==> !IsRank(gap[m])
    requires Bare(rest)
    ensures ExtractFirstTwoCards(prefix + "(" + (lead + t1 + gap + t2 + rest) + ")" + suffix) == Some(t1 + t2)
  {
    var c := lead + t1 + gap + t2 + rest;
    assert Bare(t1) && Bare(t2);
    BareConcat(lead, t1);
    BareConcat(lead + t1, gap);
    BareConcat(lead + t1 + gap, t2);
    BareConcat(lead + t1 + gap + t2, rest);
    FirstGroupRoundTrip(prefix, c, suffix);
    FirstTwoTokens(lead, t1, gap, t2, rest);
  }

  /** A group holding one card among rank-free text has fewer than two
      tokens, so the extractor reports nothing. */
  lemma OneCardGroup(prefix: string, lead: string, t: string, rest: string, suffix: string)
    requires '(' !in prefix
    requires IsCardToken(t)
    requires Bare(lead) && forall m :: 0 <= m < |lead| ==> !IsRank(lead[m])
    requires Bare(rest) && forall m :: 0 <= m < |rest| ==> !IsRank(rest[m])
    ensures ExtractFirstTwoCards(prefix + "(" + (lead + t + rest) + ")" + suffix) == None
  {
    var c := lead + t + rest;
    assert Bare(t);
    BareConcat(lead, t);
    BareConcat(lead + t, rest);
    FirstGroupRoundTrip(prefix, c, suffix);
    OneToken(lead, t, rest);
  }

  /** One card between rank-free texts is the only token found. */
  lemma OneToken(lead: string, t: string, rest: string)
    requires IsCardToken(t)
    requires forall m :: 0 <= m < |lead| ==> !IsRank(lead[m])
    requires forall m :: 0 <= m < |rest| ==> !IsRank(rest[m])
    ensures CardTokens(lead + t + rest) == [t]
  {
    assert lead + t + rest == lead + (t + rest);
    SeparatedToken(lead, t, rest);
    NoRankNoTokens(rest);
  }


  // ---------------------------------------------------------------------
  // extract_figure_signals and the Queen test: `\b[..]\b` and substrings
  // ---------------------------------------------------------------------

  const JackLetters: set<char> := {'J', 'j', 'V', 'v'}
  const KingLetters: set<char> := {'K', 'k', 'R', 'r'}
  const AceLetters: set<char> := {'A', 'a'}
  const QueenLetters: set<char> := {'Q', 'q'}

  /** `\b[letters]\b` matches at `i`: a one-letter word. */
  predicate StandaloneAt(s: string, letters: set<char>, i: int) {
    && 0 <= i < |s|
    && s[i] in letters
    && (i == 0 || !IsWordChar(s[i - 1]))
    && (i + 1 == |s| || !IsWordChar(s[i + 1]))
  }

  /** `re.search(r'\b[letters]\b', s[from..])` with the boundaries judged in `s`. */
  function HasStandaloneFrom(s: string, letters: set<char>, from: nat): (b: bool)
    ensures b <==> exists i :: from <= i && StandaloneAt(s, letters, i)
    decreases |s| - from
  {
    if from >= |s| then false
    else if StandaloneAt(s, letters, from) then true
    else HasStandaloneFrom(s, letters, from + 1)
  }

  function HasStandalone(s: string, letters: set<char>): (b: bool)
    ensures b <==> exists i :: StandaloneAt(s, letters, i)
  {
    HasStandaloneFrom(s, letters, 0)
  }

  /** The J/K/A figure flags. */
  datatype Signals = Signals(jack: bool, king: bool, ace: bool)

  /** `extract_figure_signals`: each flag looks at the WHOLE message — a
      one-letter word, or the French name anywhere as a substring. */
  function FigureSignals(s: string): (r: Signals)
    ensures r.jack <==> (exists i :: StandaloneAt(s, JackLetters, i)) || (exists i :: OccursAt(s, "Valet", i))
    ensures r.king <==> (exists i :: StandaloneAt(s, KingLetters, i)) || (exists i :: OccursAt(s, "Roi", i))
    ensures r.ace <==> (exists i :: StandaloneAt(s, AceLetters, i)) || (exists i :: OccursAt(s, "As", i))
  {
    Signals(
      HasStandalone(s, JackLetters) || Contains(s, "Valet"),
      HasStandalone(s, KingLetters) || Contains(s, "Roi"),
      HasStandalone(s, AceLetters) || Contains(s, "As"))
  }

  /** `\b[Qq]\b|Dame` somewhere in `g`. */
  ghost predicate MentionsQueen(g: string) {
    (exists i :: StandaloneAt(g, QueenLetters, i)) || (exists i :: OccursAt(g, "Dame", i))
  }

  /** `check_dame_in_first_group`: the first group is non-empty and names a Queen. */
  function QueenInFirstGroup(s: string): (b: bool)
    ensures b <==> ExtractFirstGroup(s).Some? && |ExtractFirstGroup(s).value| > 0 && MentionsQueen(ExtractFirstGroup(s).value)
  {
    match ExtractFirstGroup(s)
    case None => false
    case Some(g) => |g| > 0 && (HasStandalone(g, QueenLetters) || Contains(g, "Dame"))
  }

  // ---------------------------------------------------------------------
  // has_completion_indicators
  // ---------------------------------------------------------------------

  /** The four glyphs that mark a finalised draw: ✅ 🔰 ❌ 🔴. */
  const CompletionGlyphs: set<char> := {'\U{2705}', '\U{1F530}', '\U{274C}', '\U{1F534}'}

  function HasCompletionFrom(s: string, from: nat): (b: bool)
    ensures b <==> exists i :: from <= i < |s| && s[i] in CompletionGlyphs
    decreases |s| - from
  {
    if from >= |s| then false
    else s[from] in CompletionGlyphs || HasCompletionFrom(s, from + 1)
  }

  /** `has_completion_indicators`: some completion glyph occurs in the text. */
  function HasCompletionIndicator(s: string): (b: bool)
    ensures b <==> exists c :: c in CompletionGlyphs && c in s
  {
    var b := HasCompletionFrom(s, 0);
    assert b ==> exists c :: c in CompletionGlyphs && c in s by {
      if b {
        var i :| 0 <= i < |s| && s[i] in CompletionGlyphs;
        assert s[i] in s;
      }
    }
    b
  }

  // ---------------------------------------------------------------------
  // The double-Jack test of check_dame_rule: `re.search(r'J.*J', g, re.I)`
  // ---------------------------------------------------------------------

  predicate IsJack(c: char) {
    c == 'J' || c == 'j'
  }

  /** Two Jacks at `i < j` with no newline between them. */
  predicate JackPair(s: string, i: int, j: int) {
    && 0 <= i < j < |s|
    && IsJack(s[i]) && IsJack(s[j])
    && forall m :: i < m < j ==> s[m] != '\n'
  }

  /** First index at or after `from` holding a Jack or a newline (or `|s|`). */
  function NextJackOrBreak(s: string, from: nat): (k: nat)
    requires from <= |s|
    ensures from <= k <= |s|
    ensures k < |s| ==> IsJack(s[k]) || s[k] == '\n'
    ensures forall m :: from <= m < k ==> !IsJack(s[m]) && s[m] != '\n'
    decreases |s| - from
  {
    if from == |s| || IsJack(s[from]) || s[from] == '\n' then from else NextJackOrBreak(s, from + 1)
  }

  /** When the scan from `from + 1` meets a newline (or the end) before a
      Jack, no pair starts at `from`. */
  lemma NoJackPairAt(s: string, from: nat)
    requires from < |s|
    requires !(IsJack(s[from]) && NextJackOrBreak(s, from + 1) < |s| && IsJack(s[NextJackOrBreak(s, from + 1)]))
    ensures forall j :: !JackPair(s, from, j)
  {
    var k := NextJackOrBreak(s, from + 1);
    assert forall j :: JackPair(s, from, j) ==> k <= j;
  }

  function DoubleJackFrom(s: string, from: nat): (b: bool)
    ensures b <==> exists i, j :: from <= i && JackPair(s, i, j)
    decreases |s| - from
  {
    if from >= |s| then false
    else if IsJack(s[from]) && NextJackOrBreak(s, from + 1) < |s| && IsJack(s[NextJackOrBreak(s, from + 1)]) then
      assert JackPair(s, from, NextJackOrBreak(s, from + 1));
      true
    else
      NoJackPairAt(s, from);
      DoubleJackFrom(s, from + 1)
  }

  /** Two Jacks (either case) on one line of `g`. */
  function HasDoubleJack(g: string): (b: bool)
    ensures b <==> exists i, j :: JackPair(g, i, j)
  {
    DoubleJackFrom(g, 0)
  }

  // ---------------------------------------------------------------------
  // The Queen-card search of the cycle analysis: `re.search(r'Q[suits]', g)`
  // ---------------------------------------------------------------------

  predicate QueenCardAt(s: string, i: int) {
    0 <= i && i + 1 < |s| && s[i] == 'Q' && IsSuit(s[i + 1])
  }

  function FindQueenCardFrom(s: string, from: nat): (r: Option<nat>)
    ensures r.Some? ==> from <= r.value && QueenCardAt(s, r.value)
    ensures r.Some? ==> forall j :: from <= j < r.value ==> !QueenCardAt(s, j)
    ensures r.None? ==> forall j :: from <= j ==> !QueenCardAt(s, j)
    decreases |s| - from
  {
    if from >= |s| then None
    else if QueenCardAt(s, from) then Some(from)
    else FindQueenCardFrom(s, from + 1)
  }

  /** The leftmost "Q" followed by a suit character, as the two-character match. */
  function QueenCard(s: string): (r: Option<string>)
    ensures r.None? <==> forall j :: !QueenCardAt(s, j)
    ensures r.Some? ==> |r.value| == 2 && r.value[0] == 'Q' && IsSuit(r.value[1])
    ensures r.Some? ==> exists i :: QueenCardAt(s, i) && (forall j :: 0 <= j < i ==> !QueenCardAt(s, j)) && r.value == s[i..i + 2]
  {
    match FindQueenCardFrom(s, 0)
    case None => None
    case Some(i) =>
      assert QueenCardAt(s, i);
      Some(s[i..i + 2])
  }
}

=== FILE: handlers.dfy ===
/** The update dispatcher of handlers.py: source-channel messages feed the
    history, verification and the gate; commands and the yes/no buttons
    change the mode. Outgoing Telegram calls are returned as actions. */
module Handlers {
  import opened Wrappers
  import opened Text
  import opened Extract
  import opened Rules
  import opened History
  import opened Predictor
  import opened Cycles

  /** The three chat identifiers of `Config`, compared as strings. An empty
      admin chat means none is configured. */
  datatype Config = Config(targetChannel: string, predictionChannel: string, adminChat: string)

  /** An incoming update: any of the four message kinds, a button press, or
      anything else. */
  datatype Update =
    | Message(chatId: string, messageId: int, text: string)
    | ButtonPress(queryId: string, chatId: string, messageId: int, data: string)
    | Unhandled

  /** What a button press answers with, in place of the prompt. */
  datatype ButtonReply = Activated | Deactivated | Unrecognised

  /** The outgoing calls, with the values their texts are built from. */
  datatype Action =
    | SendVerification(chat: string, predictedGame: int, newMessage: string)
    | SendPrediction(chat: string, text: string)
    | SendInter(chat: string, report: InterReport)
    | SendStart(chat: string)
    | SendHelp(chat: string)
    | SendStatus(chat: string, modeActive: bool, failures: nat, maxFailures: nat, last: Option<string>)
    | SendDefautConfirmation(chat: string)
    | RunDeploy(chat: string)
    | AnswerCallback(queryId: string)
    | EditText(chat: string, messageId: int, reply: ButtonReply)

  datatype Outcome = Outcome(state: PredictorState, actions: seq<Action>)

  // ---------------------------------------------------------------------
  // Commands and buttons
  // ---------------------------------------------------------------------

  /** `/defaut`: the mode goes dormant and the failure streak is cleared. */
  function HandleDefaut(st: PredictorState, chat: string): (r: Outcome)
    ensures !r.state.modeActive && r.state.failures == 0
    ensures r.state == st.(modeActive := false, failures := 0)
    ensures r.actions == [SendDefautConfirmation(chat)]
  {
    Outcome(st.(modeActive := false, failures := 0), [SendDefautConfirmation(chat)])
  }

  const ActivateData: string := "activate_intelligent_mode"
  const DeactivateData: string := "deactivate_intelligent_mode"

  /** `handle_callback_query`: OUI switches the mode on and clears the
      streak; NON switches it off and keeps the streak; anything else
      changes nothing. The press is always answered and the prompt edited. */
  function HandleButton(st: PredictorState, queryId: string, chat: string, messageId: int, data: string): (r: Outcome)
    ensures data == ActivateData ==> r.state == st.(modeActive := true, failures := 0)
    ensures data == DeactivateData ==> r.state == st.(modeActive := false)
    ensures data != ActivateData && data != DeactivateData ==> r.state == st
    ensures |r.actions| == 2 && r.actions[0] == AnswerCallback(queryId)
    ensures r.actions[1].EditText? && r.actions[1].chat == chat && r.actions[1].messageId == messageId
    ensures r.actions[1].reply == Activated <==> data == ActivateData
    ensures r.actions[1].reply == Deactivated <==> data == DeactivateData
  {
    if data == ActivateData then
      Outcome(st.(modeActive := true, failures := 0), [AnswerCallback(queryId), EditText(chat, messageId, Activated)])
    else if data == DeactivateData then
      Outcome(st.(modeActive := false), [AnswerCallback(queryId), EditText(chat, messageId, Deactivated)])
    else
      Outcome(st, [AnswerCallback(queryId), EditText(chat, messageId, Unrecognised)])
  }

  /** Two prefixes that differ at index `k` never both start a text. */
  lemma PrefixesDiffer(text: string, p: string, q: string, k: nat)
    requires k < |p| && k < |q| && p[k] != q[k]
    ensures !(HasPrefix(text, p) && HasPrefix(text, q))
  {
    if HasPrefix(text, p) {
      assert text[k] == text[..|p|][k] == p[k];
    }
    if HasPrefix(text, q) {
      assert text[k] == text[..|q|][k] == q[k];
    }
  }

  /** The command branch: the first matching prefix wins; only `/defaut`
      changes the state, `/inter` reports on the history. */
  function HandleCommand(st: PredictorState, chat: string, text: string): (r: Outcome)
    requires HasPrefix(text, "/")
    ensures HasPrefix(text, "/defaut") ==> r == HandleDefaut(st, chat)
    ensures !HasPrefix(text, "/defaut") ==> r.state == st
    ensures |r.actions| <= 1
    ensures forall i :: 0 <= i < |r.actions| ==> !r.actions[i].AnswerCallback? && r.actions[i].chat == chat
    ensures HasPrefix(text, "/inter") ==> r.actions == [SendInter(chat, InterAnalysis(st.history, st.failures))]
  {
    PrefixesDiffer(text, "/start", "/defaut", 1);
    PrefixesDiffer(text, "/help", "/defaut", 1);
    PrefixesDiffer(text, "/status", "/defaut", 1);
    PrefixesDiffer(text, "/inter", "/defaut", 1);
    PrefixesDiffer(text, "/start", "/inter", 1);
    PrefixesDiffer(text, "/help", "/inter", 1);
    PrefixesDiffer(text, "/status", "/inter", 1);
    if HasPrefix(text, "/start") then Outcome(st, [SendStart(chat)])
    else if HasPrefix(text, "/help") then Outcome(st, [SendHelp(chat)])
    else if HasPrefix(text, "/status") then
      Outcome(st, [SendStatus(chat, st.modeActive, st.failures, MaxFailures, st.lastDamePrediction)])
    else if HasPrefix(text, "/inter") then Outcome(st, [SendInter(chat, InterAnalysis(st.history, st.failures))])
    else if HasPrefix(text, "/defaut") then HandleDefaut(st, chat)
    else if HasPrefix(text, "/deploy") then Outcome(st, [RunDeploy(chat)])
    else Outcome(st, [])
  }

  // ---------------------------------------------------------------------
  // The source channel
  // ---------------------------------------------------------------------

  /** The history insert done by the handler itself, before verification:
      every message with a game number and a non-empty first group. */
  function HandlerRecord(st: PredictorState, text: string, messageId: int): (r: PredictorState)
    ensures GameOf(text).None? ==> r == st
    ensures GameOf(text).Some? ==> r == st.(history := RecordText(st.history, text, Some(messageId)))
  {
    if GameOf(text).Some? then st.(history := RecordText(st.history, text, Some(messageId))) else st
  }

  /** Gate, then announcement. The gate's value always splits, so the
      `IndexError` path of `make_prediction` is never taken here. */
  function PredictStep(cfg: Config, st: PredictorState, text: string): (r: Outcome)
    ensures |r.actions| <= 1
    ensures |r.actions| == 1 <==> ShouldPredict(st, text).fired.Some?
    ensures |r.actions| == 1 ==> r.actions[0].SendPrediction? && r.actions[0].chat == cfg.predictionChannel
    ensures r.state.failures == st.failures && r.state.modeActive == st.modeActive && r.state.history == st.history
    ensures ShouldPredict(st, text).fired.None? ==> r == Outcome(st, [])
    ensures ShouldPredict(st, text).fired.Some? ==>
      var gate := ShouldPredict(st, text);
      var made := MakePrediction(gate.state, gate.fired.value.game, gate.fired.value.value);
      && made.Ok?
      && r == Outcome(made.value.0, [SendPrediction(cfg.predictionChannel, made.value.1.text)])
  {
    var gate := ShouldPredict(st, text);
    match gate.fired
    case None => Outcome(gate.state, [])
    case Some(t) =>
      var rule := CheckDameRule(FigureSignals(text), GroupOf(text).value).value;
      MakePredictionFromGate(gate.state, t.game, rule);
      var (st', posted) := MakePrediction(gate.state, t.game, t.value).value;
      Outcome(st', [SendPrediction(cfg.predictionChannel, posted.text)])
  }

  /** The notice posted for a verification edit (handlers.py:263-268). */
  function VerificationNotice(cfg: Config, a: Option<VerifyAction>): (r: seq<Action>)
    ensures |r| <= 1
    ensures |r| == 1 <==> a.Some? && a.value.EditMessage?
    ensures |r| == 1 ==> r[0] == SendVerification(cfg.predictionChannel, a.value.predictedGame, a.value.newMessage)
  {
    match a
    case Some(EditMessage(g, m, _)) => [SendVerification(cfg.predictionChannel, g, m)]
    case _ => []
  }

  /** The source-channel branch of `process_update`: record the draw, verify,
      stop after a threshold signal (handing the admin the cycle analysis),
      otherwise announce the verification and run the gate. */
  function SourceMessage(cfg: Config, st: PredictorState, messageId: int, text: string): (r: Outcome)
    ensures VerifyPrediction(HandlerRecord(st, text, messageId), text, Some(messageId)).action == Some(FailThresholdReached) ==>
      && r.state == VerifyPrediction(HandlerRecord(st, text, messageId), text, Some(messageId)).state
      && (cfg.adminChat == "" ==> r.actions == [])
      && (cfg.adminChat != "" ==> r.actions == [SendInter(cfg.adminChat, InterAnalysis(r.state.history, r.state.failures))])
    ensures var v := VerifyPrediction(HandlerRecord(st, text, messageId), text, Some(messageId));
      v.action != Some(FailThresholdReached) ==>
        && r.state == PredictStep(cfg, v.state, text).state
        && r.actions == VerificationNotice(cfg, v.action) + PredictStep(cfg, v.state, text).actions
    ensures forall i :: 0 <= i < |r.actions| && r.actions[i].SendPrediction? ==> i == |r.actions| - 1
    ensures |r.actions| <= 2
  {
    var recorded := HandlerRecord(st, text, messageId);
    var v := VerifyPrediction(recorded, text, Some(messageId));
    match v.action
    case Some(FailThresholdReached) =>
      var st' := v.state;
      if cfg.adminChat == "" then Outcome(st', [])
      else Outcome(st', [SendInter(cfg.adminChat, InterAnalysis(st'.history, st'.failures))])
    case _ =>
      var p := PredictStep(cfg, v.state, text);
      Outcome(p.state, VerificationNotice(cfg, v.action) + p.actions)
  }

  /** `process_update`. */
  function ProcessUpdate(cfg: Config, st: PredictorState, u: Update): (r: Outcome)
    ensures u.Unhandled? ==> r == Outcome(st, [])
    ensures u.Message? && u.chatId == cfg.targetChannel ==> r == SourceMessage(cfg, st, u.messageId, u.text)
    ensures u.Message? && u.chatId != cfg.targetChannel && !(HasPrefix(u.text, "/") && u.chatId != cfg.predictionChannel) ==>
      r == Outcome(st, [])
    ensures u.Message? && u.chatId != cfg.targetChannel && HasPrefix(u.text, "/") && u.chatId != cfg.predictionChannel ==>
      r == HandleCommand(st, u.chatId, u.text)
    ensures u.Message? && u.chatId != cfg.targetChannel ==> forall i :: 0 <= i < |r.actions| ==> !r.actions[i].AnswerCallback? && r.actions[i].chat == u.chatId
    ensures u.ButtonPress? ==> r == HandleButton(st, u.queryId, u.chatId, u.messageId, u.data)
    ensures st.processed <= r.state.processed
  {
    match u
    case Unhandled => Outcome(st, [])
    case ButtonPress(q, chat, mid, data) => HandleButton(st, q, chat, mid, data)
    case Message(chat, mid, text) =>
      if chat == cfg.targetChannel then SourceMessage(cfg, st, mid, text)
      else if HasPrefix(text, "/") && chat != cfg.predictionChannel then HandleCommand(st, chat, text)
      else Outcome(st, [])
  }

  // ---------------------------------------------------------------------
  // Properties across the handler
  // ---------------------------------------------------------------------

  /** A finalised draw is recorded twice, by the handler and again by
      verification; the second insert changes nothing, so the history ends
      up as after one insert. */
  lemma SourceRecordsOnce(cfg: Config, st: PredictorState, messageId: int, text: string)
    requires Valid(st)
    ensures GameOf(text).None? ==> SourceMessage(cfg, st, messageId, text).state.history == st.history
    ensures GameOf(text).Some? ==> SourceMessage(cfg, st, messageId, text).state.history == RecordText(st.history, text, Some(messageId))
  {
    var recorded := HandlerRecord(st, text, messageId);
    var v := VerifyPrediction(recorded, text, Some(messageId));
    assert v.state.history == SourceMessage(cfg, st, messageId, text).state.history;
    if GameOf(text).Some? && HasCompletionIndicator(text) {
      if GroupOf(text).Some? {
        RecordDrawIdempotent(st.history, GameOf(text).value, EntryOf(text, Some(messageId)));
      }
      assert v.state.history == RecordText(recorded.history, text, Some(messageId));
    }
  }

  /** The threshold signal ends the update: no verification notice and no
      new prediction go out, and the gate does not consume the text. */
  lemma ThresholdStopsPrediction(cfg: Config, st: PredictorState, messageId: int, text: string)
    requires VerifyPrediction(HandlerRecord(st, text, messageId), text, Some(messageId)).action == Some(FailThresholdReached)
    ensures forall a :: a in SourceMessage(cfg, st, messageId, text).actions ==> a.SendInter? && a.chat == cfg.adminChat
    ensures SourceMessage(cfg, st, messageId, text).state.processed == st.processed
    ensures SourceMessage(cfg, st, messageId, text).state.failures == MaxFailures
  {
    var recorded := HandlerRecord(st, text, messageId);
    var v := VerifyPrediction(recorded, text, Some(messageId));
    var r := SourceMessage(cfg, st, messageId, text);
    assert r.state == v.state;
    if cfg.adminChat == "" {
      assert r.actions == [];
    } else {
      assert r.actions == [SendInter(cfg.adminChat, InterAnalysis(v.state.history, v.state.failures))];
    }
    ThresholdFailures(recorded, text, Some(messageId));
  }

  /** One source message never yields both a verification notice and a new
      prediction: verification needs a completion glyph, the gate refuses one. */
  lemma NoticeOrPrediction(cfg: Config, st: PredictorState, messageId: int, text: string)
    ensures !((exists a :: a in SourceMessage(cfg, st, messageId, text).actions && a.SendVerification?) &&
              (exists a :: a in SourceMessage(cfg, st, messageId, text).actions && a.SendPrediction?))
  {
    var recorded := HandlerRecord(st, text, messageId);
    var v := VerifyPrediction(recorded, text, Some(messageId));
    var r := SourceMessage(cfg, st, messageId, text);
    if v.action.Some? {
      VerifyOrPredict(recorded, v.state, text, Some(messageId));
    }
  }

  lemma HandleCommandKeepsValid(st: PredictorState, chat: string, text: string)
    requires Valid(st) && HasPrefix(text, "/")
    ensures Valid(HandleCommand(st, chat, text).state)
  {
  }

  lemma PredictStepKeepsValid(cfg: Config, st: PredictorState, text: string)
    requires Valid(st)
    ensures Valid(PredictStep(cfg, st, text).state)
  {
    var gate := ShouldPredict(st, text);
    if gate.fired.Some? {
      MakePredictionKeepsValid(gate.state, gate.fired.value.game, gate.fired.value.value);
    }
  }

  lemma SourceMessageKeepsValid(cfg: Config, st: PredictorState, messageId: int, text: string)
    requires Valid(st)
    ensures Valid(SourceMessage(cfg, st, messageId, text).state)
  {
    var recorded := HandlerRecord(st, text, messageId);
    if GameOf(text).Some? {
      RecordTextKeepsValid(st, text, Some(messageId));
    }
    var v := VerifyPrediction(recorded, text, Some(messageId));
    VerifyKeepsValid(recorded, text, Some(messageId));
    PredictStepKeepsValid(cfg, v.state, text);
  }

  /** Every update keeps the state valid: the history stays within its
      limit with non-empty groups, and every announcement keeps its slot. */
  lemma ProcessUpdateKeepsValid(cfg: Config, st: PredictorState, u: Update)
    requires Valid(st)
    ensures Valid(ProcessUpdate(cfg, st, u).state)
  {
    if u.Message? {
      if u.chatId == cfg.targetChannel {
        SourceMessageKeepsValid(cfg, st, u.messageId, u.text);
      } else if HasPrefix(u.text, "/") && u.chatId != cfg.predictionChannel {
        HandleCommandKeepsValid(st, u.chatId, u.text);
      }
    }
  }

  /** After `/defaut` the gate stays shut for every text until a button
      switches the mode back on. */
  lemma DefautSilencesGate(st: PredictorState, chat: string, text: string)
    ensures ShouldPredict(HandleDefaut(st, chat).state, text).fired.None?
  {
  }

  /** Pressing the same button twice is pressing it once. */
  lemma ButtonIdempotent(st: PredictorState, q: string, chat: string, mid: int, data: string)
    ensures HandleButton(HandleButton(st, q, chat, mid, data).state, q, chat, mid, data).state == HandleButton(st, q, chat, mid, data).state
  {
  }

  // ---------------------------------------------------------------------
  // Runs of updates, processed one at a time in arrival order
  // ---------------------------------------------------------------------

  /** The state after handling `us` in order, starting from `st`. */
  function Run(cfg: Config, st: PredictorState, us: seq<Update>): PredictorState
    decreases |us|
  {
    if |us| == 0 then st else Run(cfg, ProcessUpdate(cfg, st, us[0]).state, us[1..])
  }

  /** The set of texts the gate has consumed only grows. */
  lemma {:induction false} RunKeepsProcessed(cfg: Config, st: PredictorState, us: seq<Update>)
    ensures st.processed <= Run(cfg, st, us).processed
    decreases |us|
  {
    if |us| > 0 {
      RunKeepsProcessed(cfg, ProcessUpdate(cfg, st, us[0]).state, us[1..]);
    }
  }

  /** Every reachable state is valid. */
  lemma {:induction false} RunKeepsValid(cfg: Config, st: PredictorState, us: seq<Update>)
    requires Valid(st)
    ensures Valid(Run(cfg, st, us))
    decreases |us|
  {
    if |us| > 0 {
      ProcessUpdateKeepsValid(cfg, st, us[0]);
      RunKeepsValid(cfg, ProcessUpdate(cfg, st, us[0]).state, us[1..]);
    }
  }

  /** An identical text never triggers a second prediction: once the gate
      fired for it, it stays shut for that text after any run of updates. */
  lemma NoRepeatPrediction(cfg: Config, st: PredictorState, text: string, us: seq<Update>)
    requires ShouldPredict(st, text).fired.Some?
    ensures ShouldPredict(Run(cfg, ShouldPredict(st, text).state, us), text).fired.None?
  {
    RunKeepsProcessed(cfg, ShouldPredict(st, text).state, us);
    ShouldPredictOnce(st, text, Run(cfg, ShouldPredict(st, text).state, us));
  }
}

=== FILE: history.dfy ===
/** The bounded draw history `draw_history` kept for the cycle analysis:
    at most `history_limit` entries, the least game number evicted first. */
module History {
  import opened Wrappers
  import opened Ordered

  /** `history_limit`. */
  const HistoryLimit: nat := 10

  /** One recorded draw: the raw text, its first group (never empty when
      stored), the id of the source message and the first two card tokens. */
  datatype DrawEntry = DrawEntry(text: string, firstGroup: string, messageId: Option<int>, firstTwoCards: Option<string>)

  type DrawHistory = map<int, DrawEntry>

  function Min(a: int, b: int): int {
    if a <= b then a else b
  }

  /** Store `e` at `game`, then delete the least key if the map outgrew the limit. */
  function RecordDraw(h: DrawHistory, game: int, e: DrawEntry): (r: DrawHistory)
    ensures game in r ==> r[game] == e
    ensures forall k :: k in r ==> k in h || k == game
    ensures forall k :: k in r && k != game ==> r[k] == h[k]
  {
    var h1 := h[game := e];
    if |h1| > HistoryLimit then h1 - {SetMin(h1.Keys)} else h1
  }

  /** The history never outgrows its limit: it grows by one until it is
      full and keeps its size from then on. */
  lemma RecordDrawSize(h: DrawHistory, game: int, e: DrawEntry)
    requires |h| <= HistoryLimit
    ensures |RecordDraw(h, game, e)| == Min(|h.Keys + {game}|, HistoryLimit)
  {
    var h1 := h[game := e];
    var keys := h.Keys + {game};
    assert h1.Keys == keys;
    assert |h1| == |keys|;
    if game in h {
      assert keys == h.Keys;
    } else {
      assert |keys| == |h.Keys| + 1;
    }
    if |h1| > HistoryLimit {
      var m := SetMin(h1.Keys);
      assert (h1 - {m}).Keys == keys - {m};
      assert |keys - {m}| == |keys| - 1;
    }
  }

  /** The new draw stays unless the history was full and every stored game
      is above it. */
  lemma RecordDrawKeepsGame(h: DrawHistory, game: int, e: DrawEntry)
    requires |h| < HistoryLimit || exists k :: k in h && k < game
    ensures game in RecordDraw(h, game, e)
  {
    var h1 := h[game := e];
    assert h1.Keys == h.Keys + {game};
    if |h1| > HistoryLimit {
      var k :| k in h && k < game;
      assert SetMin(h1.Keys) <= k;
    }
  }

  /** A draw older than every game of a full history is dropped again at
      once: it is the least key after the insert. */
  lemma RecordDrawDropsOlder(h: DrawHistory, game: int, e: DrawEntry)
    requires |h| == HistoryLimit && game !in h
    requires forall k :: k in h ==> game < k
    ensures game !in RecordDraw(h, game, e)
    ensures RecordDraw(h, game, e) == h
  {
    var h1 := h[game := e];
    assert h1.Keys == h.Keys + {game};
    assert SetMin(h1.Keys) == game;
    assert h1 - {game} == h;
  }

  /** Only the least game number is ever evicted: a key that was stored or
      being stored and is now absent is below every key that remains. */
  lemma RecordDrawEvictsLeast(h: DrawHistory, game: int, e: DrawEntry, k: int, j: int)
    requires k in h || k == game
    requires k !in RecordDraw(h, game, e) && j in RecordDraw(h, game, e)
    ensures k < j
  {
    var h1 := h[game := e];
    assert k in h1.Keys;
    if |h1| > HistoryLimit {
      var m := SetMin(h1.Keys);
      assert k == m;
    }
  }

  /** `keys` are the `HistoryLimit` largest of the game numbers `seen`
      (all of them while fewer have been seen). */
  ghost predicate HoldsNewest(keys: set<int>, seen: set<int>) {
    && keys <= seen
    && |keys| == Min(|seen|, HistoryLimit)
    && forall x, y :: x in seen && x !in keys && y in keys ==> x < y
  }

  lemma SubsetCard(a: set<int>, b: set<int>)
    requires a <= b
    ensures |a| <= |b|
    ensures |a| == |b| ==> a == b
  {
    assert b == a + (b - a);
    if |a| == |b| {
      assert |b - a| == 0;
    }
  }

  /** Recording a draw keeps exactly the most recent game numbers: whatever
      the order of arrival, the history holds the `HistoryLimit` largest game
      numbers ever recorded. */
  lemma RecordDrawKeepsNewest(h: DrawHistory, seen: set<int>, game: int, e: DrawEntry)
    requires HoldsNewest(h.Keys, seen)
    ensures HoldsNewest(RecordDraw(h, game, e).Keys, seen + {game})
  {
    var r := RecordDraw(h, game, e);
    var seen' := seen + {game};
    SubsetCard(h.Keys, seen);
    RecordDrawSize(h, game, e);
    if game in h {
      assert h.Keys + {game} == h.Keys && seen' == seen;
    } else if |h| < HistoryLimit {
      assert h.Keys == seen;
      assert |seen'| == |seen| + 1 && |h.Keys + {game}| == |h| + 1;
    } else {
      SubsetCard(seen, seen');
      assert |h.Keys + {game}| == HistoryLimit + 1;
    }
    forall x, y | x in seen' && x !in r.Keys && y in r.Keys
      ensures x < y
    {
      if x in h || x == game {
        RecordDrawEvictsLeast(h, game, e, x, y);
      } else if y == game && game !in h {
        // the newcomer stayed while the history was full, so a key of `h` was evicted
        assert |h| == HistoryLimit;
        assert |h.Keys + {game}| == HistoryLimit + 1;
        var lost := (h.Keys + {game}) - r.Keys;
        assert lost != {} by {
          if lost == {} {
            SubsetCard(h.Keys + {game}, r.Keys);
          }
        }
        HasElement(lost);
        var m :| m in lost;
        RecordDrawEvictsLeast(h, game, e, m, y);
      }
    }
  }

  /** Recording the same draw twice is recording it once: the source stores
      a finalised draw both in the update handler and again in verification. */
  lemma RecordDrawIdempotent(h: DrawHistory, game: int, e: DrawEntry)
    requires |h| <= HistoryLimit
    ensures RecordDraw(RecordDraw(h, game, e), game, e) == RecordDraw(h, game, e)
  {
    var r := RecordDraw(h, game, e);
    var h1 := h[game := e];
    if game in r {
      assert r[game := e] == r;
    } else {
      assert |h1| > HistoryLimit;
      RecordDrawSize(h, game, e);
      SubsetCard(r.Keys, h.Keys);
      assert r == h;
    }
  }
}

=== FILE: ordered.dfy ===
/** Ascending iteration over integer keys: Python's `min(d.keys())` and
    `sorted(d.keys())`. */
module Ordered {

  /** A set other than `{}` has an element. */
  lemma HasElement(s: set<int>)
    requires s != {}
    ensures exists y :: y in s
  {
    if forall z :: z !in s {
      assert false;
    }
  }

  /** `m` is the least element of `s`. */
  predicate IsLeast(m: int, s: set<int>) {
    m in s && forall x :: x in s ==> m <= x
  }

  /** Every non-empty finite set of integers has a least element. */
  lemma {:induction false} MinExists(s: set<int>)
    requires s != {}
    ensures exists m :: IsLeast(m, s)
    decreases |s|
  {
    HasElement(s);
    var y :| y in s;
    var rest := s - {y};
    assert forall x :: x in s ==> x == y || x in rest;
    if rest == {} {
      assert IsLeast(y, s);
    } else {
      MinExists(rest);
      var m :| IsLeast(m, rest);
      if y < m {
        assert IsLeast(y, s);
      } else {
        assert IsLeast(m, s);
      }
    }
  }

  /** `min(s)`. */
  function SetMin(s: set<int>): (m: int)
    requires s != {}
    ensures m in s
    ensures forall x :: x in s ==> m <= x
  {
    MinExists(s);
    var m :| IsLeast(m, s);
    m
  }

  predicate StrictlyIncreasing(q: seq<int>) {
    forall i, j :: 0 <= i < j < |q| ==> q[i] < q[j]
  }

  /** `sorted(s)`: the elements of `s`, each once, in ascending order. */
  function Sorted(s: set<int>): (q: seq<int>)
    ensures |q| == |s|
    ensures forall x :: x in q <==> x in s
    ensures StrictlyIncreasing(q)
    decreases |s|
  {
    if s == {} then []
    else
      var m := SetMin(s);
      [m] + Sorted(s - {m})
  }
}

=== FILE: predictor.dfy ===
/** The state of `CardPredictor` (card_predictor.py) and its three
    state-changing operations: the should-predict gate, prediction creation
    and verification. Each operation is a pure function from the old state
    to the new state and what the caller is told. */
module Predictor {
  import opened Wrappers
  import opened Text
  import opened Extract
  import opened Rules
  import opened Ordered
  import opened History

  /** `MAX_FAILURES_BEFORE_INTELLIGENT_MODE`. */
  const MaxFailures: nat := 2

  /** `max_offset_dame`: the last offset after the target that still counts. */
  const MaxOffset: int := 3

  /** The status slot every prediction text ends with, and its two fillings. */
  const Placeholder: string := "statut :\U{23F3}"
  const SuccessStatus: string := "statut :\U{2705}"
  const FailureStatus: string := "statut :\U{274C}"

  datatype Status = Pending | Correct | Failed

  /** One entry of `predictions`, keyed by its target game. */
  datatype Prediction = Prediction(value: string, status: Status, source: int, text: string, isDame: bool)

  /** The fields of `CardPredictor` that the core reads and writes. The
      dedup set holds texts (the source stores their `hash()`); the time
      stamp of the last prediction is not modelled. */
  datatype PredictorState = PredictorState(
    predictions: map<int, Prediction>,
    processed: set<string>,
    lastDamePrediction: Option<string>,
    failures: nat,
    modeActive: bool,
    history: DrawHistory)

  /** `CardPredictor.__init__`. */
  function Initial(): (st: PredictorState)
    ensures Valid(st) && !st.modeActive && st.failures == 0
    ensures st.predictions == map[] && st.processed == {} && st.lastDamePrediction == None && st.history == map[]
  {
    PredictorState(map[], {}, None, 0, false, map[])
  }

  /** A prediction text: a head free of '⏳' followed by the placeholder. */
  predicate IsRendered(t: string) {
    && |t| >= |Placeholder|
    && t[|t| - |Placeholder|..] == Placeholder
    && Placeholder[|Placeholder| - 1] !in t[..|t| - |Placeholder|]
  }

  /** What every reachable state satisfies: a bounded history of non-empty
      groups, and prediction texts that still carry their status slot. */
  predicate Valid(st: PredictorState) {
    && |st.history| <= HistoryLimit
    && (forall k :: k in st.history ==> |st.history[k].firstGroup| > 0)
    && AllRendered(st.predictions)
  }

  predicate AllRendered(preds: map<int, Prediction>) {
    forall k :: k in preds ==> IsRendered(preds[k].text)
  }

  // ---------------------------------------------------------------------
  // Truthiness of the extracted values, as the callers test them
  // ---------------------------------------------------------------------

  /** The game number as `if not game_number` sees it: 0 counts as absent. */
  function GameOf(text: string): (r: Option<nat>)
    ensures r.Some? <==> ExtractGameNumber(text).Some? && ExtractGameNumber(text).value != 0
    ensures r.Some? ==> r.value > 0 && ExtractGameNumber(text) == Some(r.value)
  {
    match ExtractGameNumber(text)
    case Some(n) => if n == 0 then None else Some(n)
    case None => None
  }

  /** The first group as `if not first_group` sees it: "" counts as absent. */
  function GroupOf(text: string): (r: Option<string>)
    ensures r.Some? <==> ExtractFirstGroup(text).Some? && |ExtractFirstGroup(text).value| > 0
    ensures r.Some? ==> |r.value| > 0 && ExtractFirstGroup(text) == Some(r.value)
  {
    match ExtractFirstGroup(text)
    case Some(g) => if |g| == 0 then None else Some(g)
    case None => None
  }

  // ---------------------------------------------------------------------
  // should_predict
  // ---------------------------------------------------------------------

  /** The rule an in-progress text fires, if the gate lets it through. */
  function GateRule(st: PredictorState, text: string): Option<DameRule> {
    if GameOf(text).None? || HasCompletionIndicator(text) || !st.modeActive || GroupOf(text).None? then None
    else CheckDameRule(FigureSignals(text), GroupOf(text).value)
  }

  /** A fired gate: the source game and the value `"Q:<rule>"`. */
  datatype Trigger = Trigger(game: nat, value: string)

  datatype Gate = Gate(state: PredictorState, fired: Option<Trigger>)

  /** `should_predict`: fires only for an in-progress text (game number, no
      completion glyph) with a non-empty first group, while the mode is on,
      when a rule applies and the very same text never fired before. */
  function ShouldPredict(st: PredictorState, text: string): (r: Gate)
    ensures r.fired.Some? <==>
      && GameOf(text).Some?
      && !HasCompletionIndicator(text)
      && st.modeActive
      && GroupOf(text).Some?
      && CheckDameRule(FigureSignals(text), GroupOf(text).value).Some?
      && text !in st.processed
    ensures r.fired.None? ==> r.state == st
    ensures r.fired.Some? ==>
      && r.fired.value.game == GameOf(text).value
      && r.fired.value.value == EncodeValue(CheckDameRule(FigureSignals(text), GroupOf(text).value).value)
      && r.state == st.(processed := st.processed + {text}, lastDamePrediction := Some(r.fired.value.value))
  {
    match GateRule(st, text)
    case None => Gate(st, None)
    case Some(rule) =>
      if text in st.processed then Gate(st, None)
      else
        var value := EncodeValue(rule);
        Gate(st.(processed := st.processed + {text}, lastDamePrediction := Some(value)),
             Some(Trigger(GameOf(text).value, value)))
  }

  /** An identical text never fires twice, whatever happens in between to
      the mode, the predictions or the history. */
  lemma ShouldPredictOnce(st: PredictorState, text: string, later: PredictorState)
    requires ShouldPredict(st, text).fired.Some?
    requires ShouldPredict(st, text).state.processed <= later.processed
    ensures ShouldPredict(later, text).fired.None?
    ensures ShouldPredict(later, text).state == later
  {
    assert text in later.processed;
  }

  // ---------------------------------------------------------------------
  // make_prediction
  // ---------------------------------------------------------------------

  /** Games between the source and the target for a rule identifier
      (the fallback, any unknown identifier, uses 2). */
  function TargetDelta(ruleName: string): int {
    if ruleName == "Q_NEXT_DRAW" || ruleName == "Q_WAIT_1" then 3 else 2
  }

  /** The announcement without its status slot. */
  function RenderHead(target: int, ruleName: string): string {
    "\U{1F3AF}" + IntToDecimal(target) + "\U{1F3AF}: Dame (Q) **" + RuleLabel(ruleName)
  }

  /** The words naming the rule in the head of an announcement. */
  function RuleLabel(ruleName: string): string {
    if ruleName == "Q_IMMEDIATE_JJ" then "IMMINENTE** (JJ) "
    else if ruleName == "Q_IMMEDIATE" then "IMMINENTE** (J/K+J) "
    else if ruleName == "Q_NEXT_DRAW" then "PROCHAIN** (K seul) "
    else if ruleName == "Q_WAIT_1" then "ATTENTE 1** (A+K) "
    else "EN COURS** "
  }

  /** The head of an announcement never holds the hourglass of the slot. */
  lemma HeadHasNoHourglass(target: int, ruleName: string)
    ensures '\U{23F3}' !in RenderHead(target, ruleName)
  {
    var a, b := "\U{1F3AF}", "\U{1F3AF}: Dame (Q) **";
    DecimalHasNoHourglass(target);
    LabelHasNoHourglass(ruleName);
    assert '\U{23F3}' !in a && '\U{23F3}' !in b;
    NotInConcat('\U{23F3}', a, IntToDecimal(target));
    NotInConcat('\U{23F3}', a + IntToDecimal(target), b);
    NotInConcat('\U{23F3}', a + IntToDecimal(target) + b, RuleLabel(ruleName));
  }

  lemma LabelHasNoHourglass(ruleName: string)
    ensures '\U{23F3}' !in RuleLabel(ruleName)
  {
  }

  lemma NotInConcat<T>(c: T, x: seq<T>, y: seq<T>)
    requires c !in x && c !in y
    ensures c !in x + y
  {
  }

  lemma DecimalHasNoHourglass(i: int)
    ensures '\U{23F3}' !in IntToDecimal(i)
  {
    var d := IntToDecimal(i);
    if i >= 0 {
      assert forall j :: 0 <= j < |d| ==> IsDigit(d[j]);
    } else {
      assert d == [d[0]] + d[1..];
      assert forall j :: 0 <= j < |d[1..]| ==> IsDigit(d[1..][j]);
    }
  }

  /** The full announcement text. */
  function RenderText(target: int, ruleName: string): (t: string)
    ensures IsRendered(t)
    ensures t[..|t| - |Placeholder|] == RenderHead(target, ruleName)
  {
    var h := RenderHead(target, ruleName);
    HeadHasNoHourglass(target, ruleName);
    var t := h + Placeholder;
    assert t[..|t| - |Placeholder|] == h;
    assert t[|t| - |Placeholder|..] == Placeholder;
    t
  }

  /** What `make_prediction` hands back for posting. */
  datatype Posted = Posted(text: string, target: int)

  /** `make_prediction`: stores a pending prediction at source + 2 or + 3,
      replacing whatever was stored there, and renders its announcement. A
      value without ':' raises, as `split(':')[1]` does. */
  function MakePrediction(st: PredictorState, game: int, value: string): (r: Result<(PredictorState, Posted), string>)
    ensures r.Err? <==> ':' !in value
    ensures r.Ok? ==>
      var (st', posted) := r.value;
      && posted.target == game + TargetDelta(SecondField(value).value)
      && posted.text == RenderText(posted.target, SecondField(value).value)
      && st' == st.(predictions := st.predictions[posted.target := Prediction(value, Pending, game, posted.text, HasPrefix(value, "Q:"))])
  {
    match SecondField(value)
    case Err(e) => Err(e)
    case Ok(rule) =>
      var target := game + TargetDelta(rule);
      var text := RenderText(target, rule);
      var p := Prediction(value, Pending, game, text, HasPrefix(value, "Q:"));
      Ok((st.(predictions := st.predictions[target := p]), Posted(text, target)))
  }

  /** A value written by the gate is a Queen prediction at the rule's offset,
      stored pending under its target and touching no other key. */
  lemma MakePredictionFromGate(st: PredictorState, game: int, rule: DameRule)
    ensures MakePrediction(st, game, EncodeValue(rule)).Ok?
    ensures
      var (st', posted) := MakePrediction(st, game, EncodeValue(rule)).value;
      && posted.target == game + rule.Offset()
      && posted.target in st'.predictions
      && st'.predictions[posted.target].status == Pending
      && st'.predictions[posted.target].isDame
      && (forall k :: k != posted.target ==> (k in st'.predictions <==> k in st.predictions))
      && (forall k :: k != posted.target && k in st.predictions ==> st'.predictions[k] == st.predictions[k])
      && st'.failures == st.failures && st'.history == st.history && st'.modeActive == st.modeActive
  {
    GateValueShape(rule);
  }

  /** The gate's value splits, marks a Queen prediction, and names a rule
      whose target delta is the rule's offset. */
  lemma GateValueShape(rule: DameRule)
    ensures ':' in EncodeValue(rule)
    ensures HasPrefix(EncodeValue(rule), "Q:")
    ensures SecondField(EncodeValue(rule)) == Ok(rule.Name())
    ensures TargetDelta(rule.Name()) == rule.Offset()
  {
    EncodeValueRoundTrip(rule);
    var v := EncodeValue(rule);
    assert v[..2] == "Q:";
    assert v[1] == ':';
  }

  lemma MakePredictionKeepsValid(st: PredictorState, game: int, value: string)
    requires Valid(st)
    requires MakePrediction(st, game, value).Ok?
    ensures Valid(MakePrediction(st, game, value).value.0)
  {
  }

  // ---------------------------------------------------------------------
  // verify_prediction
  // ---------------------------------------------------------------------

  /** The outcome reported to the update handler. */
  datatype VerifyAction =
    | EditMessage(predictedGame: int, newMessage: string, originalMessage: string)
    | FailThresholdReached

  datatype Step = Step(state: PredictorState, action: Option<VerifyAction>)

  /** A prediction the scan acts on for a finalised draw of `game`: a
      pending Queen prediction whose target has arrived, either inside the
      window with a Queen drawn, or past the window. */
  predicate Due(p: Prediction, target: int, game: int, queen: bool) {
    && p.status == Pending
    && p.isDame
    && game - target >= 0
    && (game - target > MaxOffset || queen)
  }

  /** `k` is the lowest target the ascending scan acts on. */
  ghost predicate LeastDue(preds: map<int, Prediction>, game: int, queen: bool, k: int) {
    && k in preds
    && Due(preds[k], k, game, queen)
    && forall k' :: k' in preds && k' < k ==> !Due(preds[k'], k', game, queen)
  }

  /** Index of the first due prediction along `keys`. */
  function FirstDue(preds: map<int, Prediction>, keys: seq<int>, game: int, queen: bool): (r: Option<nat>)
    requires forall i :: 0 <= i < |keys| ==> keys[i] in preds
    ensures r.Some? ==> r.value < |keys| && Due(preds[keys[r.value]], keys[r.value], game, queen)
    ensures r.Some? ==> forall i :: 0 <= i < r.value ==> !Due(preds[keys[i]], keys[i], game, queen)
    ensures r.None? ==> forall i :: 0 <= i < |keys| ==> !Due(preds[keys[i]], keys[i], game, queen)
    decreases |keys|
  {
    if |keys| == 0 then None
    else if Due(preds[keys[0]], keys[0], game, queen) then Some(0)
    else match FirstDue(preds, keys[1..], game, queen)
      case None => None
      case Some(i) => Some(i + 1)
  }

  /** The first due key along an ascending list of all the keys is the
      least due key. */
  lemma FirstDueIsLeast(preds: map<int, Prediction>, keys: seq<int>, game: int, queen: bool)
    requires forall i :: 0 <= i < |keys| ==> keys[i] in preds
    requires forall k :: k in preds ==> k in keys
    requires StrictlyIncreasing(keys)
    ensures
      var r := FirstDue(preds, keys, game, queen);
      && (r.None? <==> forall k :: k in preds ==> !Due(preds[k], k, game, queen))
      && (r.Some? ==> LeastDue(preds, game, queen, keys[r.value]))
  {
    var r := FirstDue(preds, keys, game, queen);
    forall k | k in preds && Due(preds[k], k, game, queen)
      ensures r.Some? && keys[r.value] <= k
    {
      var j :| 0 <= j < |keys| && keys[j] == k;
    }
  }

  /** The outcome of a due prediction resolved `offset` games after its target. */
  function Verdict(offset: int): Status {
    if offset <= MaxOffset then Correct else Failed
  }

  /** Resolving the lowest due prediction: inside the window it is correct
      and the streak resets; past the window it failed and the streak grows,
      and reaching the threshold exactly replaces the edit by the signal. */
  function Resolve(st: PredictorState, k: int, game: int): (r: Step)
    requires k in st.predictions
    ensures r.action.Some?
    ensures r.state.predictions == st.predictions[k := st.predictions[k].(status := Verdict(game - k))]
    ensures && r.state.history == st.history && r.state.processed == st.processed
            && r.state.lastDamePrediction == st.lastDamePrediction && r.state.modeActive == st.modeActive
    ensures game - k <= MaxOffset ==>
      && r.state.failures == 0
      && r.action == Some(EditMessage(k, ReplaceAll(st.predictions[k].text, Placeholder, SuccessStatus), st.predictions[k].text))
    ensures game - k > MaxOffset ==>
      && r.state.failures == st.failures + 1
      && (r.action == Some(FailThresholdReached) <==> r.state.failures == MaxFailures)
      && (r.state.failures != MaxFailures ==>
            r.action == Some(EditMessage(k, ReplaceAll(st.predictions[k].text, Placeholder, FailureStatus), st.predictions[k].text)))
  {
    var p := st.predictions[k];
    if game - k <= MaxOffset then
      Step(st.(predictions := st.predictions[k := p.(status := Correct)], failures := 0),
           Some(EditMessage(k, ReplaceAll(p.text, Placeholder, SuccessStatus), p.text)))
    else
      var failures := st.failures + 1;
      var st' := st.(predictions := st.predictions[k := p.(status := Failed)], failures := failures);
      if failures == MaxFailures then Step(st', Some(FailThresholdReached))
      else Step(st', Some(EditMessage(k, ReplaceAll(p.text, Placeholder, FailureStatus), p.text)))
  }

  /** The target the ascending scan of `verify_prediction` stops at. */
  function LeastDueKey(preds: map<int, Prediction>, game: int, queen: bool): (r: Option<int>)
    ensures r.None? <==> forall k :: k in preds ==> !Due(preds[k], k, game, queen)
    ensures r.Some? ==> LeastDue(preds, game, queen, r.value)
  {
    var keys := Sorted(preds.Keys);
    FirstDueIsLeast(preds, keys, game, queen);
    match FirstDue(preds, keys, game, queen)
    case None => None
    case Some(i) => Some(keys[i])
  }

  /** The scan of `verify_prediction` over the targets in ascending order:
      nothing happens unless some prediction is due, and then only the
      lowest due one changes. */
  function ScanPredictions(st: PredictorState, game: int, queen: bool): (r: Step)
    ensures r.action.Some? <==> exists k :: k in st.predictions && Due(st.predictions[k], k, game, queen)
    ensures r.action.None? ==> r.state == st
    ensures && r.state.processed == st.processed && r.state.lastDamePrediction == st.lastDamePrediction
            && r.state.modeActive == st.modeActive && r.state.history == st.history
    ensures r.action.Some? ==> LeastDueKey(st.predictions, game, queen).Some?
    ensures r.action.Some? ==> r == Resolve(st, LeastDueKey(st.predictions, game, queen).value, game)
  {
    match LeastDueKey(st.predictions, game, queen)
    case None => Step(st, None)
    case Some(k) => Resolve(st, k, game)
  }

  /** The history entry a finalised draw would be stored as. */
  function EntryOf(text: string, messageId: Option<int>): DrawEntry
    requires GroupOf(text).Some?
  {
    DrawEntry(text, GroupOf(text).value, messageId, ExtractFirstTwoCards(text))
  }

  /** The history update shared by the update handler and verification:
      a text with a game number and a non-empty first group is recorded. */
  function RecordText(h: DrawHistory, text: string, messageId: Option<int>): (r: DrawHistory)
    requires GameOf(text).Some?
    ensures GroupOf(text).None? ==> r == h
    ensures GroupOf(text).Some? ==> r == RecordDraw(h, GameOf(text).value, EntryOf(text, messageId))
    ensures GroupOf(text).Some? && GameOf(text).value in r ==>
      var e := r[GameOf(text).value];
      && e.text == text
      && e.firstGroup == GroupOf(text).value
      && e.messageId == messageId
      && e.firstTwoCards == ExtractFirstTwoCards(text)
  {
    if GroupOf(text).Some? then RecordDraw(h, GameOf(text).value, EntryOf(text, messageId)) else h
  }

  /** `verify_prediction`: only a finalised draw (game number and completion
      glyph) is looked at; it is recorded in the history, then the lowest
      due pending prediction, if any, is resolved. */
  function VerifyPrediction(st: PredictorState, text: string, messageId: Option<int>): (r: Step)
    ensures GameOf(text).None? || !HasCompletionIndicator(text) ==> r == Step(st, None)
    ensures && r.state.processed == st.processed && r.state.lastDamePrediction == st.lastDamePrediction
            && r.state.modeActive == st.modeActive
    ensures GameOf(text).Some? && HasCompletionIndicator(text) ==>
      var game := GameOf(text).value;
      var recorded := st.(history := RecordText(st.history, text, messageId));
      r == ScanPredictions(recorded, game, QueenInFirstGroup(text))
  {
    if GameOf(text).None? || !HasCompletionIndicator(text) then Step(st, None)
    else
      var game := GameOf(text).value;
      var recorded := st.(history := RecordText(st.history, text, messageId));
      ScanPredictions(recorded, game, QueenInFirstGroup(text))
  }

  /** `r` resolved the lowest due prediction `k` of `preds` and nothing else:
      its status records the outcome, the streak resets on a success and
      grows by one on a failure, and the threshold signal is given exactly
      when a failure brings the streak to 2. */
  ghost predicate ResolvedOnce(preds: map<int, Prediction>, failures: nat, r: Step, game: int, queen: bool) {
    exists k ::
      && LeastDue(preds, game, queen, k)
      && r.state.predictions == preds[k := preds[k].(status := Verdict(game - k))]
      && (game - k <= MaxOffset ==> r.state.failures == 0)
      && (game - k > MaxOffset ==> r.state.failures == failures + 1)
      && (r.action == Some(FailThresholdReached) <==> game - k > MaxOffset && r.state.failures == MaxFailures)
  }

  lemma ScanOutcome(st: PredictorState, game: int, queen: bool)
    requires ScanPredictions(st, game, queen).action.Some?
    ensures ResolvedOnce(st.predictions, st.failures, ScanPredictions(st, game, queen), game, queen)
  {
    var k := LeastDueKey(st.predictions, game, queen).value;
    assert ScanPredictions(st, game, queen) == Resolve(st, k, game);
  }

  /** Verification changes at most one prediction, and nothing but its status;
      the streak resets on a success and grows by one on a failure; the
      threshold signal is given exactly when the streak becomes 2. */
  lemma VerifyOutcome(st: PredictorState, text: string, messageId: Option<int>)
    requires VerifyPrediction(st, text, messageId).action.Some?
    ensures GameOf(text).Some? && HasCompletionIndicator(text)
    ensures ResolvedOnce(st.predictions, st.failures, VerifyPrediction(st, text, messageId), GameOf(text).value, QueenInFirstGroup(text))
  {
    assert GameOf(text).Some? && HasCompletionIndicator(text);
    var recorded := st.(history := RecordText(st.history, text, messageId));
    ScanOutcome(recorded, GameOf(text).value, QueenInFirstGroup(text));
  }

  /** The threshold signal leaves the streak at exactly its limit. */
  lemma ThresholdFailures(st: PredictorState, text: string, messageId: Option<int>)
    requires VerifyPrediction(st, text, messageId).action == Some(FailThresholdReached)
    ensures VerifyPrediction(st, text, messageId).state.failures == MaxFailures
  {
    VerifyOutcome(st, text, messageId);
  }

  /** `edited` is the rendered `original` with its ⏳ slot replaced by `filling`. */
  predicate SwappedSlot(original: string, edited: string, filling: string) {
    IsRendered(original) && edited == original[..|original| - |Placeholder|] + filling
  }

  /** Resolving a rendered announcement swaps its ⏳ slot for ✅ on a
      success and for ❌ on a failure below the threshold. */
  lemma ResolveSwapsSlot(st: PredictorState, k: int, game: int)
    requires k in st.predictions && IsRendered(st.predictions[k].text)
    requires Resolve(st, k, game).action.value.EditMessage?
    ensures
      var a := Resolve(st, k, game).action.value;
      && a.predictedGame == k
      && a.originalMessage == st.predictions[k].text
      && SwappedSlot(a.originalMessage, a.newMessage, if game - k <= MaxOffset then SuccessStatus else FailureStatus)
  {
    var t := st.predictions[k].text;
    var head := t[..|t| - |Placeholder|];
    assert t == head + Placeholder;
    ReplaceTrailing(head, Placeholder, SuccessStatus);
    ReplaceTrailing(head, Placeholder, FailureStatus);
  }

  /** A resolution edit rewrites the stored announcement of the resolved
      target, with its ⏳ slot swapped for the outcome. */
  lemma ScanEditSwapsSlot(st: PredictorState, game: int, queen: bool)
    requires AllRendered(st.predictions)
    requires ScanPredictions(st, game, queen).action.Some?
    requires ScanPredictions(st, game, queen).action.value.EditMessage?
    ensures
      var a := ScanPredictions(st, game, queen).action.value;
      && a.predictedGame in st.predictions
      && a.originalMessage == st.predictions[a.predictedGame].text
      && SwappedSlot(a.originalMessage, a.newMessage, if game - a.predictedGame <= MaxOffset then SuccessStatus else FailureStatus)
  {
    var k := LeastDueKey(st.predictions, game, queen).value;
    ResolveSwapsSlot(st, k, game);
  }

  /** The same for a whole verification: the history update in front of the
      scan leaves the announcements alone. */
  lemma VerifyEditSwapsSlot(st: PredictorState, text: string, messageId: Option<int>)
    requires Valid(st)
    requires VerifyPrediction(st, text, messageId).action.Some?
    requires VerifyPrediction(st, text, messageId).action.value.EditMessage?
    ensures GameOf(text).Some?
    ensures
      var a := VerifyPrediction(st, text, messageId).action.value;
      && a.predictedGame in st.predictions
      && a.originalMessage == st.predictions[a.predictedGame].text
      && SwappedSlot(a.originalMessage, a.newMessage, if GameOf(text).value - a.predictedGame <= MaxOffset then SuccessStatus else FailureStatus)
  {
    assert GameOf(text).Some? && HasCompletionIndicator(text);
    var recorded := st.(history := RecordText(st.history, text, messageId));
    ScanEditSwapsSlot(recorded, GameOf(text).value, QueenInFirstGroup(text));
  }

  /** Resolution keeps every announcement text and the history. */
  lemma ScanKeepsValid(st: PredictorState, game: int, queen: bool)
    requires Valid(st)
    ensures Valid(ScanPredictions(st, game, queen).state)
  {
    var r := ScanPredictions(st, game, queen);
    if r.action.Some? {
      var k := LeastDueKey(st.predictions, game, queen).value;
      StatusChangeKeepsTexts(st.predictions, k, Verdict(game - k));
    }
  }

  lemma StatusChangeKeepsTexts(preds: map<int, Prediction>, k: int, s: Status)
    requires k in preds
    requires AllRendered(preds)
    ensures AllRendered(preds[k := preds[k].(status := s)])
  {
  }

  lemma RecordTextKeepsValid(st: PredictorState, text: string, messageId: Option<int>)
    requires Valid(st) && GameOf(text).Some?
    ensures Valid(st.(history := RecordText(st.history, text, messageId)))
  {
    if GroupOf(text).Some? {
      var game := GameOf(text).value;
      var e := EntryOf(text, messageId);
      var h := RecordDraw(st.history, game, e);
      RecordDrawSize(st.history, game, e);
      forall k | k in h
        ensures |h[k].firstGroup| > 0
      {
        if k != game {
          assert h[k] == st.history[k];
        }
      }
    }
  }

  lemma VerifyKeepsValid(st: PredictorState, text: string, messageId: Option<int>)
    requires Valid(st)
    ensures Valid(VerifyPrediction(st, text, messageId).state)
  {
    if GameOf(text).Some? && HasCompletionIndicator(text) {
      var recorded := st.(history := RecordText(st.history, text, messageId));
      RecordTextKeepsValid(st, text, messageId);
      ScanKeepsValid(recorded, GameOf(text).value, QueenInFirstGroup(text));
    }
  }

  /** Verification and the gate never both act on one text: verification
      needs a completion glyph, the gate forbids one. */
  lemma VerifyOrPredict(st: PredictorState, st2: PredictorState, text: string, messageId: Option<int>)
    requires VerifyPrediction(st, text, messageId).action.Some?
    ensures ShouldPredict(st2, text).fired.None?
  {
  }
}

=== FILE: rules.dfy ===
/** The Queen ("Dame") rule table of `CardPredictor.check_dame_rule` and the
    `"Q:<rule>"` value that `should_predict` hands to `make_prediction`. */
module Rules {
  import opened Wrappers
  import opened Extract

  /** The four rules of the table, named as in the source. */
  datatype DameRule = ImmediateJJ | Immediate | NextDraw | Wait1 {

    /** The identifier the source uses for the rule. */
    function Name(): string {
      match this
      case ImmediateJJ => "Q_IMMEDIATE_JJ"
      case Immediate => "Q_IMMEDIATE"
      case NextDraw => "Q_NEXT_DRAW"
      case Wait1 => "Q_WAIT_1"
    }

    /** How many games after the triggering one the Queen is expected. */
    function Offset(): int {
      match this
      case ImmediateJJ => 2
      case Immediate => 2
      case NextDraw => 3
      case Wait1 => 3
    }
  }

  /** `check_dame_rule`: the double-Jack pattern of the group wins over the
      J/K/A flags; then J alone or K with J, then K without A, then K with A. */
  function CheckDameRule(sig: Signals, group: string): (r: Option<DameRule>)
    ensures HasDoubleJack(group) ==> r == Some(ImmediateJJ)
    ensures r == Some(Immediate) <==> !HasDoubleJack(group) && sig.jack && (sig.king || !sig.ace)
    ensures r == Some(NextDraw) <==> !HasDoubleJack(group) && sig.king && !sig.jack && !sig.ace
    ensures r == Some(Wait1) <==> !HasDoubleJack(group) && sig.king && !sig.jack && sig.ace
    ensures r.None? <==> !HasDoubleJack(group) && !sig.king && (!sig.jack || sig.ace)
  {
    if HasDoubleJack(group) then Some(ImmediateJJ)
    else if (sig.jack && !sig.king && !sig.ace) || (sig.king && sig.jack) then Some(Immediate)
    else if sig.king && !sig.ace then Some(NextDraw)
    else if sig.king && sig.ace then Some(Wait1)
    else None
  }

  /** The value recorded for a rule: `f"Q:{rule}"`. */
  function EncodeValue(r: DameRule): string {
    "Q:" + r.Name()
  }

  /** Index of the first ':' at or after `from`, or `|s|`. */
  function NextColon(s: string, from: nat): (k: nat)
    requires from <= |s|
    ensures from <= k <= |s|
    ensures k < |s| ==> s[k] == ':'
    ensures forall m :: from <= m < k ==> s[m] != ':'
    decreases |s| - from
  {
    if from == |s| || s[from] == ':' then from else NextColon(s, from + 1)
  }

  /** `s[c]` is the first colon of `s`, and `e` is the next colon after it or the end. */
  predicate FieldBounds(s: string, c: int, e: int) {
    && 0 <= c < e <= |s|
    && s[c] == ':'
    && ':' !in s[..c]
    && (e == |s| || s[e] == ':')
  }

  /** Python's `s.split(':')[1]`: the field between the first and second
      colon (or the end); `Err` models the `IndexError` when there is no colon. */
  function SecondField(s: string): (r: Result<string, string>)
    ensures r.Err? <==> ':' !in s
    ensures r.Ok? ==> ':' !in r.value
    ensures r.Ok? ==> exists c, e :: FieldBounds(s, c, e) && r.value == s[c + 1..e]
  {
    var c := NextColon(s, 0);
    if c == |s| then
      Err("IndexError: list index out of range")
    else
      var e := NextColon(s, c + 1);
      var f := s[c + 1..e];
      assert forall m :: 0 <= m < |f| ==> f[m] == s[c + 1 + m];
      assert ':' !in s[..c] by {
        assert forall m :: 0 <= m < c ==> s[..c][m] == s[m];
      }
      assert FieldBounds(s, c, e);
      Ok(f)
  }

  /** Recognising a rule identifier: the inverse of `Name`. */
  function ParseRuleName(name: string): (r: Option<DameRule>)
    ensures r.Some? ==> r.value.Name() == name
  {
    if name == "Q_IMMEDIATE_JJ" then Some(ImmediateJJ)
    else if name == "Q_IMMEDIATE" then Some(Immediate)
    else if name == "Q_NEXT_DRAW" then Some(NextDraw)
    else if name == "Q_WAIT_1" then Some(Wait1)
    else None
  }

  /** Rule identifiers are told apart, and the value written by `should_predict`
      is split back into its rule by `make_prediction`. */
  lemma EncodeValueRoundTrip(r: DameRule)
    ensures ParseRuleName(r.Name()) == Some(r)
    ensures SecondField(EncodeValue(r)) == Ok(r.Name())
  {
    var v := EncodeValue(r);
    assert v[0] == 'Q' && v[1] == ':';
    assert NextColon(v, 0) == 1 by {
      assert NextColon(v, 1) == 1;
      assert NextColon(v, 0) == NextColon(v, 1);
    }
    assert ':' !in r.Name();
    assert NextColon(v, 2) == |v| by {
      forall m | 2 <= m < |v|
        ensures v[m] != ':'
      {
        assert v[m] == r.Name()[m - 2];
      }
      NoColonRunsToEnd(v, 2);
    }
    assert v[2..|v|] == r.Name();
  }

  lemma NoColonRunsToEnd(s: string, from: nat)
    requires from <= |s|
    requires forall m :: from <= m < |s| ==> s[m] != ':'
    ensures NextColon(s, from) == |s|
  {
  }
}

=== FILE: text.dfy ===
/** Character classes and the few string primitives the scanners rely on:
    decimal conversion (`int()` / `str()`), substring search (`in`),
    `str.replace` and `str.strip('()')`. */
module Text {

  /** `\d`, restricted to ASCII digits. */
  predicate IsDigit(c: char) {
    '0' <= c <= '9'
  }

  predicate IsAsciiLetter(c: char) {
    ('a' <= c <= 'z') || ('A' <= c <= 'Z')
  }

  /** A word character for `\b`: ASCII letters, digits and underscore. */
  predicate IsWordChar(c: char) {
    IsAsciiLetter(c) || IsDigit(c) || c == '_'
  }

  predicate AllDigits(s: string) {
    forall i :: 0 <= i < |s| ==> IsDigit(s[i])
  }

  function DigitValue(c: char): nat
    requires IsDigit(c)
  {
    (c as int) - ('0' as int)
  }

  function DigitChar(d: nat): (c: char)
    requires d < 10
    ensures IsDigit(c) && DigitValue(c) == d
  {
    ('0' as int + d) as char
  }

  /** Python's `int()` applied to a run of decimal digits (leading zeros allowed). */
  function DigitsValue(s: string): nat
    requires AllDigits(s)
    decreases |s|
  {
    if |s| == 0 then 0 else 10 * DigitsValue(s[..|s| - 1]) + DigitValue(s[|s| - 1])
  }

  /** Python's `str()` of a non-negative int: canonical decimal, no leading zero. */
  function NatToDecimal(n: nat): (s: string)
    ensures |s| > 0 && AllDigits(s)
    ensures |s| == 1 || s[0] != '0'
    decreases n
  {
    if n < 10 then [DigitChar(n)] else NatToDecimal(n / 10) + [DigitChar(n % 10)]
  }

  /** Python's `str()` of any int. */
  function IntToDecimal(i: int): (s: string)
    ensures |s| > 0
    ensures i >= 0 ==> AllDigits(s)
    ensures i < 0 ==> s[0] == '-' && AllDigits(s[1..])
  {
    if i < 0 then "-" + NatToDecimal(-i) else NatToDecimal(i)
  }

  /** Reading back what `str()` wrote gives the number again. */
  lemma {:induction false} DecimalRoundTrip(n: nat)
    ensures DigitsValue(NatToDecimal(n)) == n
  {
    if n >= 10 {
      var s := NatToDecimal(n / 10);
      var t := s + [DigitChar(n % 10)];
      DecimalRoundTrip(n / 10);
      assert t[..|t| - 1] == s;
    }
  }

  /** Python's `s.startswith(prefix)`. */
  predicate HasPrefix(s: string, prefix: string) {
    |prefix| <= |s| && s[..|prefix|] == prefix
  }

  /** `pat` occurs in `s` starting at index `i`. */
  predicate OccursAt(s: string, pat: string, i: nat) {
    i + |pat| <= |s| && s[i..i + |pat|] == pat
  }

  /** Python's `pat in s`, scanning from index `from`. */
  function ContainsFrom(s: string, pat: string, from: nat): (b: bool)
    ensures b <==> exists i :: from <= i && OccursAt(s, pat, i)
    decreases |s| - from
  {
    if from + |pat| > |s| then false
    else if s[from..from + |pat|] == pat then assert OccursAt(s, pat, from); true
    else ContainsFrom(s, pat, from + 1)
  }

  /** Python's `pat in s`. */
  function Contains(s: string, pat: string): (b: bool)
    ensures b <==> exists i :: OccursAt(s, pat, i)
  {
    ContainsFrom(s, pat, 0)
  }

  /** Python's `s.replace(pat, rep)`: every non-overlapping occurrence, left to right. */
  function ReplaceAll(s: string, pat: string, rep: string): (r: string)
    requires |pat| > 0
    ensures rep == pat ==> r == s
    ensures |rep| == |pat| ==> |r| == |s|
    decreases |s|
  {
    if |s| < |pat| then s
    else if s[..|pat|] == pat then rep + ReplaceAll(s[|pat|..], pat, rep)
    else [s[0]] + ReplaceAll(s[1..], pat, rep)
  }

  /** A text without the pattern is left as it is. */
  lemma {:induction false} ReplaceAbsent(s: string, pat: string, rep: string)
    requires |pat| > 0
    requires forall i :: !OccursAt(s, pat, i)
    ensures ReplaceAll(s, pat, rep) == s
    decreases |s|
  {
    if |s| >= |pat| {
      assert !OccursAt(s, pat, 0);
      OccursShift(s, pat);
      ReplaceAbsent(s[1..], pat, rep);
    }
  }

  /** An occurrence in the tail is an occurrence one index on. */
  lemma OccursShift(s: string, pat: string)
    requires |s| > 0
    ensures forall i: nat :: OccursAt(s[1..], pat, i) ==> OccursAt(s, pat, i + 1)
  {
    forall i: nat | OccursAt(s[1..], pat, i)
      ensures OccursAt(s, pat, i + 1)
    {
      assert s[1..][i..i + |pat|] == s[i + 1..i + 1 + |pat|];
    }
  }

  /** When the last character of `pat` is a marker that appears nowhere else in
      `body + pat`, the only occurrence of `pat` is the trailing one, so
      `replace` swaps exactly that suffix. */
  lemma {:induction false} ReplaceTrailing(body: string, pat: string, rep: string)
    requires |pat| > 0
    requires pat[|pat| - 1] !in body
    requires pat[|pat| - 1] !in pat[..|pat| - 1]
    ensures ReplaceAll(body + pat, pat, rep) == body + rep
  {
    var s := body + pat;
    var mark := pat[|pat| - 1];
    if |body| == 0 {
      assert s == pat;
      assert s[|pat|..] == [];
    } else {
      // an occurrence at 0 would put the marker at index |pat| - 1, inside `body` or before the end of `pat`
      assert s[..|pat|] != pat;
      assert s[1..] == body[1..] + pat;
      assert mark !in body[1..];
      ReplaceTrailing(body[1..], pat, rep);
      assert [body[0]] + body[1..] == body;
    }
  }

  predicate IsParen(c: char) {
    c == '(' || c == ')'
  }

  /** Number of `(`/`)` characters at the front of `s`. */
  function LeadingParens(s: string): (n: nat)
    ensures n <= |s|
    ensures forall i :: 0 <= i < n ==> IsParen(s[i])
    ensures n == |s| || !IsParen(s[n])
    decreases |s|
  {
    if |s| == 0 || !IsParen(s[0]) then 0 else 1 + LeadingParens(s[1..])
  }

  /** Number of `(`/`)` characters at the back of `s`. */
  function TrailingParens(s: string): (n: nat)
    ensures n <= |s|
    ensures forall i :: |s| - n <= i < |s| ==> IsParen(s[i])
    ensures n == |s| || !IsParen(s[|s| - n - 1])
    decreases |s|
  {
    if |s| == 0 || !IsParen(s[|s| - 1]) then 0 else 1 + TrailingParens(s[..|s| - 1])
  }

  /** `r` is what remains of `s` after cutting `a` characters from the front
      and the rest past `a + |r|` from the back, all of them parentheses. */
  predicate StrippedAt(s: string, r: string, a: nat) {
    && a + |r| <= |s|
    && s[a..a + |r|] == r
    && (forall i :: 0 <= i < a ==> IsParen(s[i]))
    && (forall i :: a + |r| <= i < |s| ==> IsParen(s[i]))
  }

  /** Python's `s.strip('()')`. */
  function StripParens(s: string): (r: string)
    ensures exists a :: StrippedAt(s, r, a)
    ensures |r| > 0 ==> !IsParen(r[0]) && !IsParen(r[|r| - 1])
  {
    var a := LeadingParens(s);
    if a == |s| then
      assert StrippedAt(s, [], 0);
      []
    else
      var n := TrailingParens(s);
      assert |s| - n > a;
      assert StrippedAt(s, s[a..|s| - n], a);
      s[a..|s| - n]
  }

  /** Stripping twice is stripping once. */
  lemma StripIdempotent(s: string)
    ensures StripParens(StripParens(s)) == StripParens(s)
  {
    var r := StripParens(s);
    assert LeadingParens(r) == 0;
    if |r| > 0 {
      assert TrailingParens(r) == 0;
      assert r[0..|r|] == r;
    }
  }
}

=== FILE: wrappers.dfy ===
/** Failure-compatible result types used throughout the model. */
module Wrappers {

  /** A value that may be absent: the model of Python's `Optional[T]`. */
  datatype Option<+T> = None | Some(value: T)

  /** A computation that either yields a value or raises an error. */
  datatype Result<+T, +E> = Ok(value: T) | Err(error: E)
}
